=== FILE: README.md ===
# Implicit chain of thought: latent selection, scoring and data re-chunking

This project models the non-neural core of `train_large_qonly.py` from the
implicit-chain-of-thought repository, together with the data preparation
script `data/reform_data.py`.

A teacher model reads a problem together with its reasoning trace. For every
example the training script:

- locates the span of the reasoning trace;
- spreads one anchor position per layer evenly over that span;
- gathers the teacher's hidden state at each anchor.

These states become the latents `zs` of a student, which sees only the
problem. Around this step sit the bookkeeping parts that are modelled here:

- the next-token accuracy counts;
- `evaluate`'s exact-match loop, which cuts each example into problem and
  answer at EOS tokens and compares normalised answers;
- the final accuracy ratios;
- the gradient-accumulation schedule of the training loop.

The re-chunking script parses two lines of the form
`question||reasoning####answer\n` and writes both problems as one line.

Modules, one per concern:

| module | concern |
|---|---|
| `Wrappers` | `Option` and `Result`. Python exceptions become `Failure` values. |
| `Span` | `list.index`, the trace mask, and the span locator. |
| `Rounding` | `torch.round` (round half to even) of an exact rational. |
| `Anchors` | the per-layer anchor positions. |
| `Latents` | the per-batch anchor selection, `gather`, and the beam replication. |
| `Answer` | EOS segmentation and `extract_answer`. |
| `Scoring` | token counts, the exact-match loop, and the final ratios. |
| `Schedule` | Python's `%`, and the `step` / `accumulate` optimizer schedule. |
| `TextSplit` | Python's `str.split` and `str.join`. |
| `Reform` | `chunk`, and the merged line of `data/reform_data.py`. |

Hidden states are an abstract element type, so no tensor arithmetic is
modelled. The tokenizer's `decode` is passed in as a function parameter, in
two versions: without and with `skip_special_tokens`.

## Model

| member | source | states |
|---|---|---|
| Span.Index | train_large_qonly.py:62 | `list.index(v)` fails exactly when `v` does not occur. Otherwise it gives a position holding `v` with no earlier `v`. |
| Span.TraceMask | train_large_qonly.py:46 | `labels_cot_shift.lt(0)`: an entry is `false` (a trace token) exactly when its shifted label is non-negative. The mask has the labels' length. |
| Span.MaskLocate | train_large_qonly.py:46-62 | Locating the trace in the mask built from the shifted labels fails exactly when every shifted label is negative (ignored). |
| Span.MaskTraceRun | train_large_qonly.py:46-67 | On success, `first` is the first position whose shifted label is non-negative. Every earlier label is negative. The span is the maximal run of non-negative labels from there. |
| Span.Locate | train_large_qonly.py:59-67 | Fails (the uncaught `ValueError`) exactly when the mask holds no `false`. Otherwise the span is the first maximal run of `false` entries, closed by the next `true` or by `len(mask)`. |
| Span.FirstTraceRunUnique | train_large_qonly.py:59-67 | The first-run description admits at most one span. |
| Span.LocateComplete | train_large_qonly.py:59-67 | Every span that is the mask's first run of trace tokens is the one the locator returns. |
| Span.LocateExample | train_large_qonly.py:59-67 | The mask `[T,T,F,F,F,T,T]` gives the span `(2, 5)`. |
| Span.LocateUnclosed | train_large_qonly.py:64-67 | A trace that runs to the end of the mask gets `last = len(mask)`, the `except ValueError` branch. |
| Rounding.RoundHalfEven | train_large_qonly.py:71 | The result is an integer nearest to `n/d`; on an exact tie it is the even one. |
| Rounding.NearestEvenUnique | train_large_qonly.py:71 | The nearest integer with ties to even is unique, so `RoundHalfEven` is the only such rounding. |
| Rounding.RoundMonotone | train_large_qonly.py:71 | Rounding preserves the order of numerators. |
| Rounding.RoundExact | train_large_qonly.py:71 | A whole number is left unchanged by rounding. |
| Anchors.Anchors | train_large_qonly.py:69-72 | There is one anchor per layer. Anchor `i` is the nearest-even rounding of `first + i*(last-1-first)/L`. |
| Anchors.AnchorsInSpan | train_large_qonly.py:69-72 | Every anchor lies in `[first, last-1]`, inside the trace span. |
| Anchors.AnchorsSorted | train_large_qonly.py:69-72 | Anchors never decrease with the layer index. |
| Anchors.AnchorsStartAtFirst | train_large_qonly.py:69-72 | Layer 0 is anchored at the first trace token. |
| Anchors.AnchorsSingleToken | train_large_qonly.py:69-72 | A one-token trace anchors every layer at that token. |
| Anchors.AnchorsExample | train_large_qonly.py:69-72 | The span `(2, 5)` with three layers gives the anchors `[2, 3, 3]`. |
| Latents.SelectAnchors | train_large_qonly.py:225-238 | Succeeds exactly when every example has a trace token. Otherwise it reports the first example without one. On success, each example's `first_ids` entry and anchors are what `Locate` and `Anchors` give, and lie inside its mask. |
| Latents.GatherIgnoresLastStack | train_large_qonly.py:77 | Only `hidden_states_cot[:-1]` is read: replacing the last stack does not change the latents. |
| Latents.Gather | train_large_qonly.py:76-78 | `gather` over the stacks `hidden_states_cot[:-1]`: one latent per layer (every stack but the last), each with one entry per example. |
| Latents.GatherAt | train_large_qonly.py:76-78 | Entry `b` of layer `i`'s latent is `H[i][b]` at example `b`'s `i`-th anchor. |
| Latents.Extract | train_large_qonly.py:242-246 | Fails exactly when some example has no trace token. Otherwise it yields one latent per layer (all stacks but the last) and per example. The latent of layer `i`, example `b` is `H[i][b]` at that example's `i`-th anchor, which is in range. |
| Latents.Replicate | train_large_qonly.py:118-119 | `expand(beam_size)` of one item: exactly `k` entries, each equal to the item. |
| Latents.BeamInputs | train_large_qonly.py:118-119 | Example `i`'s `first_ids` entry and each layer's latent, repeated once per beam. |
| Latents.BeamOfExtract | train_large_qonly.py:118-119 | For the latents that `Extract` returns, every beam of example `i` starts at that example's first trace token. For layer `l` it receives the hidden state of stack `l` at the example's `l`-th anchor. |
| Answer.Segment | train_large_qonly.py:99-104 | The first `.index` fails exactly when `ids` has no EOS, the second exactly when it has one. Segmentation succeeds iff there are at least two. On success, `src + tgt + [eos]` is a prefix of `ids`, `src` ends with the only EOS it holds, and `tgt` holds none. |
| Answer.SegmentComplete | train_large_qonly.py:99-104 | Conversely, any `ids = src + tgt + [eos] + rest` with that shape is segmented into exactly `src` and `tgt`. |
| Answer.Strip | train_large_qonly.py:30 | `str.strip()`: the result is a slice with only whitespace outside it, and it starts and ends with a non-space character unless it is empty. |
| Answer.StripUnique | train_large_qonly.py:30 | Any slice fitting that description is the result of `Strip`. |
| Answer.StripFixed | train_large_qonly.py:30 | Text with no leading or trailing whitespace is left unchanged. |
| Answer.StripIdempotent | train_large_qonly.py:30 | Stripping twice equals stripping once. |
| Answer.RemoveCommas | train_large_qonly.py:30 | `replace(',', '')` leaves no comma and never lengthens the text. |
| Answer.RemoveCommasCounts | train_large_qonly.py:30 | Every comma is deleted and every other character occurs in the result exactly as often as in the text. |
| Answer.RemoveCommasDrops | train_large_qonly.py:30 | A comma is deleted, not replaced: removing commas from `a + "," + b` gives the results for `a` and `b`, joined. |
| Answer.RemoveCommasAppend | train_large_qonly.py:30 | Comma removal distributes over concatenation: the other characters stay, in order. |
| Answer.RemoveCommasNoComma | train_large_qonly.py:30 | Comma-free text is left unchanged. |
| Answer.ExtractAnswer | train_large_qonly.py:29-31 | The normalised answer holds no comma and is no longer than the text. |
| Answer.ExtractAnswerFixed | train_large_qonly.py:29-31 | A comma-free text that is already stripped is its own answer. |
| Answer.ExtractAnswerGrouped | train_large_qonly.py:29-31 | `"1,234"` normalises to `"1234"`. |
| Answer.ExtractAnswerPadded | train_large_qonly.py:29-31 | `" 1234 "` normalises to `"1234"`. |
| Answer.ExtractAnswerNotIdempotent | train_large_qonly.py:29-31 | Stripping before removing commas makes normalisation not idempotent: `", 5"` gives `" 5"`, which gives `"5"`. |
| Scoring.HitsAtMostValid | train_large_qonly.py:90-92 | A counted hit is a non-ignored position, so `correct <= total`. Among `n` labels at most `n-1` are counted. |
| Scoring.TokenCounts | train_large_qonly.py:90-92 | The loop counts the positions `j >= 1` whose label is not ignored, and those where the prediction at `j-1` equals the label. Hits never exceed counted positions. |
| Scoring.BatchTokenCounts | train_large_qonly.py:258-261 | The batch `.sum()` equals the sum of the per-example counts, with hits never exceeding counted positions. |
| Scoring.Ratio | train_large_qonly.py:135-136 | Integer true division fails exactly on a zero denominator. Otherwise the quotient times the denominator is the numerator, and it lies in `[0, 1]` when the numerator is at most the denominator. |
| Scoring.ScoreExample | train_large_qonly.py:97-131 | One example's comparison fails exactly when its ids hold fewer than two EOS tokens. It fails on the first `.index` exactly when they hold none. |
| Scoring.ScoreContinuation | train_large_qonly.py:123-124 | When the generated sequence repeats the prompt, the compared prediction is exactly the generated continuation. |
| Scoring.ExactMatchExample | train_large_qonly.py:129-131 | The reference `"1,234"` and the prediction `"1234"` count as a match. |
| Scoring.OutcomesSucceed | train_large_qonly.py:97-132 | A batch's evaluation succeeds exactly when every example's comparison does. |
| Scoring.OutcomesAt | train_large_qonly.py:97-132 | The `k`-th recorded outcome is example `k`'s comparison. |
| Scoring.OutcomesFailAt | train_large_qonly.py:97-132 | The first failing example's error is the error of the whole batch; later examples are not looked at. |
| Scoring.BatchSucceeds | train_large_qonly.py:99-103 | A batch evaluates without error exactly when every example holds two EOS tokens. |
| Scoring.CountMatches | train_large_qonly.py:97-132 | For any per-example comparison, the loop agrees with the reference evaluation. On success it counts one instance per example and one correct answer per match. On failure it reports the error of the first failing example. |
| Scoring.ExactMatches | train_large_qonly.py:97-132 | With `evaluate`'s own comparison (segment, decode, `extract_answer`, compare), the tally is the reference evaluation's: matches over examples, or the first segmentation error. |
| Scoring.AddBatch | train_large_qonly.py:91-92 | Adding a batch's counts keeps every numerator at most its denominator. |
| Scoring.Report | train_large_qonly.py:135-136 | Reporting fails exactly when `total` or `total_instances` is zero. Both accuracies satisfy `accuracy * denominator = numerator`, and lie in `[0, 1]` for consistent counters. |
| Schedule.PyMod | train_large_qonly.py:278 | Python's `%` takes the sign of the divisor: in `[0, k)` for `k > 0` and in `(k, 0]` for `k < 0`. |
| Schedule.PyDivMod | train_large_qonly.py:278 | `a == (a // k) * k + a % k`. |
| Schedule.Batch | train_large_qonly.py:278-283 | Fails exactly when `accumulate` is 0. Otherwise `step` advances by one, and the optimizer steps exactly when `step % k == k - 1`. Stepping clears the pending backward passes; otherwise one more is pending. |
| Schedule.RunFromStart | train_large_qonly.py:278-296 | After `n` batches from `step = 0` with `accumulate = k >= 1`, there have been `n // k` optimizer steps, and `n % k` backward passes are pending. |
| Schedule.NegativeNeverSteps | train_large_qonly.py:278 | A negative `accumulate` never triggers an optimizer step. |
| Schedule.ZeroFails | train_large_qonly.py:278 | `accumulate = 0` raises on the first batch. |
| Schedule.RunAppend | train_large_qonly.py:296 | Running `a` batches and then `b` more is running `a + b` batches. |
| Schedule.TrainIsOneRun | train_large_qonly.py:197-203 | `step` is set once and never reset between epochs, so training epoch by epoch is one run over all batches. |
| Schedule.StraddleExample | train_large_qonly.py:197-203 | Two epochs of three batches with `accumulate = 4` give one optimizer step and two pending passes: an accumulation window straddles the epochs. |
| TextSplit.FindFrom | data/reform_data.py:5 | Finds the leftmost occurrence of the separator at or after `from`, or reports that there is none. |
| TextSplit.Split | data/reform_data.py:5 | `split` gives at least one piece, and exactly one iff the separator does not occur. |
| TextSplit.SplitPiecesLeftmost | data/reform_data.py:5-6 | The cuts are leftmost: each piece but the last, followed by the separator, first holds the separator where the piece ends, so no occurrence starts inside a piece. With `SplitJoin` and `SplitPartsFree` this fixes the pieces. |
| TextSplit.SplitJoin | data/reform_data.py:5 | Joining the pieces with the separator gives back the text. |
| TextSplit.SplitPartsFree | data/reform_data.py:5 | No piece contains the separator. |
| TextSplit.SplitAfter | data/reform_data.py:5 | When `x` lacks the separator's first character, `x + sep + y` splits into `x` followed by the pieces of `y`. |
| TextSplit.SplitLeftmostExample | data/reform_data.py:6 | `"a#####b".split("####")` is `["a", "#b"]`: the stray `#` after the leftmost match goes to the next piece. |
| Reform.PySliceTo | data/reform_data.py:7 | `s[:j]` is a prefix of `s`. A negative `j` counts from the end, and both ends are clamped. |
| Reform.DropLast | data/reform_data.py:7 | `p[:len(p)-1]` removes the last character whatever it is, and leaves an empty text empty. |
| Reform.Fields | data/reform_data.py:6 | The first field is `seg[0]`. There are at least three fields iff the second segment `seg[1]` holds `####`. |
| Reform.TrimThird | data/reform_data.py:7 | Only the third field loses its last character; the other fields are unchanged. |
| Reform.ParseLine | data/reform_data.py:5-7 | Fails (`IndexError` at `seg[1]`) exactly when the line has no `||`. Fails (`IndexError` at `parts[2]`) exactly when the text between the first and second `||` (or the end of the line) has no `####`. Otherwise it yields at least three fields. |
| Reform.ParseSegments | data/reform_data.py:5-7 | Parsing reads only the first two `||`-segments. |
| Reform.ParseFields | data/reform_data.py:5-7 | A newline-terminated line `x||y####z\n` whose fields hold no `|` or `#` parses to `[x, y, z]`. |
| Reform.SecondBarDiscarded | data/reform_data.py:5-6 | When the first two fields hold no `|`, whatever follows a second `||` is discarded (`Reform.ParseSegments` states the general case). |
| Reform.Chunk | data/reform_data.py:4-15 | `chunk` succeeds iff both lines parse. The first line's error is raised first. On success it returns both lines' fields. |
| Reform.ReformPair | data/reform_data.py:29-31 | A line is written exactly when both input lines parse. |
| Reform.ReformFields | data/reform_data.py:29-31 | Two well-formed lines are merged field by field into `x1, x2||y1,y2####z1,z2\n` (the f-string is `Reform.Concat`). |
| Reform.ConcatRoundTrip | data/reform_data.py:30 | The written line parses back into the merged fields. |
| Reform.DropsFinalCharacter | data/reform_data.py:7 | As written: on a line not ending in a newline, the answer loses its real last character. |
| Reform.LastLineExample | data/reform_data.py:7 | As written: `q||c####42` parses to `["q", "c", "4"]`. |
| Reform.StripNewline | data/reform_data.py:7 | Corrected trim: exactly one character is removed iff the text ends with a newline. |
| Reform.ParseLineIntended | data/reform_data.py:5-7 | The corrected parser succeeds and fails on the same lines, with the same errors, as the code. |
| Reform.ExtraHashDropsCharacter | data/reform_data.py:6-7 | On a line `x||y####z####w` with clean fields, the code's third field is `z` without its last character, even when the line ends with a newline. The corrected parser keeps `z`, apart from a trailing newline. |
| Reform.ExtraHashExample | data/reform_data.py:6-7 | `a||b####c####d\n` gives the third field `""` as written and `"c"` corrected. |
| Reform.IntendedIgnoresNewline | data/reform_data.py:7 | On a line `x||y####z` with clean fields, the corrected parser reads the line the same with or without a final newline, and agrees with the code when the newline is there. |

## Left out

- The neural models are left out: `model_q`'s forward pass, `model.forward_zs` and `model.generate` (beam search). Hidden states are an abstract parameter, and the generated sequence is an input to scoring.
- The Gaussian noise `torch.randn_like(...) * sigmas[i]` added to the latents (lines 79 and 247) is randomness, so it is not modelled. `Latents.Extract` yields the clean latents (`zs0`). In `evaluate`, the latents passed on are noisy.
- Losses are left out: cross-entropy, the KL term, `total_loss`, perplexity, `math.exp` and its `inf` fallback. All are floating point.
- The optimizer is left out: `optimizer.step`, `zero_grad` and `clip_grad_norm_`. The schedule records only when the optimizer steps.
- The tokenizer, the datasets, the collator and the data loaders are left out. The model works on token-id sequences and takes `decode` as a parameter.
- Argument parsing, file reading and writing, the `num_lines` loop of `data/reform_data.py` (each pass is one `Reform.ReformPair`), printing, `tqdm` progress bars, the `step % 100` logging, and device and autocast set-up are left out. All of these are I/O.
- The training-time `accuracy = correct / total` (line 262) is a tensor division, and `0/0` gives `nan` rather than raising. It is not modelled as `Scoring.Ratio`.
- The per-epoch call to `evaluate` (line 298) is left out. It is the model's own operations run in sequence.
- Anchors.Anchors: the division is taken as the exact rational rather than float32. On ties that float rounding pushes off the exact half, the result can differ.
- Scoring.ExactMatches: when a batch aborts, line 98 has already counted the failing example as an instance. The model reports only the error, because the program stops there.
- Scoring.Ratio: returns the exact rational `num / den`. Python's `int / int` returns the float nearest to it. So `r * den == num` holds of the model's value, but not always of the program's float: `(1/49)*49` is `0.9999999999999999`.
- Scoring.Report: both accuracies are the exact rationals whose rounded floats the program returns, as for `Scoring.Ratio`.
- Scoring.ScoreExample: takes `decode` and `decodeSkip` as arbitrary functions. The properties hold for every tokenizer, and nothing specific to a tokenizer is stated.

## Notes

- The anchors of the span `(2, 5)` over three layers are `[2, 3, 3]`, because the last anchor `2 + 2*2/3 = 10/3` rounds to 3 (`Anchors.AnchorsExample`).
- An example without two EOS tokens raises an uncaught `ValueError` at line 99 or 103, which aborts `evaluate` (`Scoring.OutcomesFailAt`).

## Findings

| source | as written | input that shows it | evidently intended | confidence | as-written member | corrected member |
|---|---|---|---|---|---|---|
| data/reform_data.py:7 | `first_parts[2][:len(first_parts[2])-1]` drops the last character unconditionally (also line 11) | a last line without a trailing newline, `q\|\|c####42`, gives the answer `4`; a line with a second `####`, `a\|\|b####c####d` plus newline, gives the third field `""` instead of `c` | drop only the trailing newline that `readline` keeps | medium, not executed | Reform.DropsFinalCharacter | Reform.IntendedIgnoresNewline |

`Reform.ReformPair` follows the code as written. `Reform.ParseLineIntended`
is the corrected parser. It fails on exactly the same lines as the code.
On a newline-terminated line `x||y####z\n` whose fields hold no `|` or `#`,
both parsers give the same fields (`Reform.IntendedIgnoresNewline`). On a
line with a second `####` they differ even when it ends with a newline
(`Reform.ExtraHashDropsCharacter`).

=== FILE: anchors.dfy ===
/** The anchor sampler of train_large_qonly.py: one token position per layer,
    spread evenly over the trace span `[first, last)` by
    `torch.round(first + i * (last - 1 - first) / L)` for `i` in `[0, L)`.
    The division is modelled as the exact rational `(first*L + i*(last-1-first)) / L`
    and `torch.round` as round half to even. */
module Anchors {
  import opened Rounding

  /** Numerator of the anchor of layer `i` over the common denominator `layers`. */
  function AnchorNumerator(first: nat, last: nat, layers: nat, i: nat): nat
    requires first < last
  {
    MulNat(first, layers);
    MulNat(i, last - 1 - first);
    first * layers + i * (last - 1 - first)
  }

  /** Lines 70-72: the anchor positions of one example, one per layer. */
  function Anchors(first: nat, last: nat, layers: nat): (r: seq<nat>)
    requires first < last
    ensures |r| == layers
    ensures forall i :: 0 <= i < layers ==> IsNearestEven(AnchorNumerator(first, last, layers, i), layers, r[i])
  {
    seq(layers, i requires 0 <= i < layers => RoundHalfEven(AnchorNumerator(first, last, layers, i), layers))
  }

  lemma NumeratorBounds(first: nat, last: nat, layers: nat, i: nat)
    requires first < last && i < layers
    ensures first * layers <= AnchorNumerator(first, last, layers, i) <= (last - 1) * layers
  {
    var g := last - 1 - first;
    assert i * g <= layers * g;
    assert (last - 1) * layers == first * layers + g * layers;
  }

  /** Every anchor lies in `[first, last - 1]`, hence strictly inside the span. */
  lemma AnchorsInSpan(first: nat, last: nat, layers: nat)
    requires first < last
    ensures forall i :: 0 <= i < layers ==> first <= Anchors(first, last, layers)[i] <= last - 1
  {
    var r := Anchors(first, last, layers);
    forall i | 0 <= i < layers
      ensures first <= r[i] <= last - 1
    {
      NumeratorBounds(first, last, layers, i);
      RoundExact(first, layers);
      RoundExact(last - 1, layers);
      RoundMonotone(first * layers, AnchorNumerator(first, last, layers, i), layers);
      RoundMonotone(AnchorNumerator(first, last, layers, i), (last - 1) * layers, layers);
    }
  }

  /** Anchors never decrease from one layer to the next. */
  lemma AnchorsSorted(first: nat, last: nat, layers: nat)
    requires first < last
    ensures forall i, j :: 0 <= i <= j < layers ==> Anchors(first, last, layers)[i] <= Anchors(first, last, layers)[j]
  {
    var r := Anchors(first, last, layers);
    forall i, j | 0 <= i <= j < layers
      ensures r[i] <= r[j]
    {
      NumeratorMonotone(first, last, layers, i, j);
      RoundMonotone(AnchorNumerator(first, last, layers, i), AnchorNumerator(first, last, layers, j), layers);
    }
  }

  lemma NumeratorMonotone(first: nat, last: nat, layers: nat, i: nat, j: nat)
    requires first < last && i <= j
    ensures AnchorNumerator(first, last, layers, i) <= AnchorNumerator(first, last, layers, j)
  {
    var g := last - 1 - first;
    assert j * g == i * g + (j - i) * g;
    MulNat(j - i, g);
  }

  /** The anchor of layer 0 is the first trace token. */
  lemma AnchorsStartAtFirst(first: nat, last: nat, layers: nat)
    requires first < last && layers >= 1
    ensures Anchors(first, last, layers)[0] == first
  {
    RoundExact(first, layers);
  }

  /** A single-token trace gives `layers` copies of `first`. */
  lemma AnchorsSingleToken(first: nat, layers: nat)
    ensures Anchors(first, first + 1, layers) == seq(layers, _ => first)
  {
    var r := Anchors(first, first + 1, layers);
    forall i | 0 <= i < layers
      ensures r[i] == first
    {
      RoundExact(first, layers);
    }
  }

  /** The worked example: span (2, 5) with three layers gives [2, 3, 3]; the
      last anchor is 2 + 4/3 = 10/3, which rounds to 3. */
  lemma AnchorsExample()
    ensures Anchors(2, 5, 3) == [2, 3, 3]
  {
    var r := Anchors(2, 5, 3);
    assert r[0] == RoundHalfEven(6, 3);
    assert r[1] == RoundHalfEven(8, 3);
    assert r[2] == RoundHalfEven(10, 3);
  }
}

=== FILE: answer.dfy ===
/** Answer handling in `evaluate` of train_large_qonly.py: cutting a token
    sequence into problem and answer at end-of-sequence tokens, and the
    normalisation `extract_answer(text) = text.strip().replace(',', '')`. */
module Answer {
  import opened Wrappers
  import opened Span

  /** The problem `src` (ending with its EOS) and the reference answer `tgt`. */
  datatype Segments = Segments(src: seq<int>, tgt: seq<int>)

  /** Which `.index(eos_token_id)` raised `ValueError`: the first (line 99) or
      the second (line 103). */
  datatype SegmentError = NoFirstEos | NoSecondEos

  /** Lines 99-104: `src = ids[:s+1]`, `tgt = ids[s+1:][:t]` where `s` is the
      first EOS of `ids` and `t` the first EOS after it. */
  function Segment(ids: seq<int>, eos: int): (r: Result<Segments, SegmentError>)
    ensures r == Failure(NoFirstEos) <==> Occurrences(ids, eos) == 0
    ensures r == Failure(NoSecondEos) <==> Occurrences(ids, eos) == 1
    ensures r.Success? <==> Occurrences(ids, eos) >= 2
    ensures r.Success? ==>
      && r.value.src + r.value.tgt + [eos] <= ids
      && |r.value.src| >= 1
      && r.value.src[|r.value.src| - 1] == eos
      && eos !in r.value.src[..|r.value.src| - 1]
      && eos !in r.value.tgt
  {
    match Index(ids, eos)
    case None => Failure(NoFirstEos)
    case Some(s) =>
      match IndexFrom(ids, eos, s + 1)
      case None =>
        OnlyOneEos(ids, s, eos);
        Failure(NoSecondEos)
      case Some(t) =>
        TwoEos(ids, s, t, eos);
        Success(Segments(ids[..s + 1], ids[s + 1..t]))
  }

  /** The first EOS at `s` and none after it: exactly one copy. */
  lemma OnlyOneEos(ids: seq<int>, s: nat, eos: int)
    requires s < |ids| && ids[s] == eos
    requires forall j :: 0 <= j < s ==> ids[j] != eos
    requires forall j :: s + 1 <= j < |ids| ==> ids[j] != eos
    ensures Occurrences(ids, eos) == 1
  {
    CountAround(ids, s, eos);
    assert eos !in ids[s + 1..];
  }

  /** The first EOS at `s` and the next at `t`: the cut `Segment` makes. */
  lemma TwoEos(ids: seq<int>, s: nat, t: nat, eos: int)
    requires s < t < |ids| && ids[s] == eos && ids[t] == eos
    requires forall j :: 0 <= j < s ==> ids[j] != eos
    requires forall j :: s + 1 <= j < t ==> ids[j] != eos
    ensures Occurrences(ids, eos) >= 2
    ensures ids[..s + 1] + ids[s + 1..t] + [eos] <= ids
    ensures ids[..s + 1][s] == eos
    ensures eos !in ids[..s + 1][..s]
    ensures eos !in ids[s + 1..t]
  {
    CountAround(ids, s, eos);
    SecondCount(ids, s, t, eos);
    SegmentPrefix(ids, s, t, eos);
    var u := ids[s + 1..t];
    forall j | 0 <= j < |u|
      ensures u[j] != eos
    {
      assert u[j] == ids[s + 1 + j];
    }
  }

  /** Number of copies of `v` in `s`. */
  function Occurrences(s: seq<int>, v: int): (n: nat)
    ensures n == 0 <==> v !in s
  {
    if |s| == 0 then 0
    else (if s[0] == v then 1 else 0) + Occurrences(s[1..], v)
  }

  /** Splitting at the first occurrence of `eos` accounts for one of its copies. */
  lemma {:induction false} CountAround(ids: seq<int>, s: nat, eos: int)
    requires s < |ids| && ids[s] == eos
    requires forall j :: 0 <= j < s ==> ids[j] != eos
    ensures Occurrences(ids, eos) == Occurrences(ids[s + 1..], eos) + 1
  {
    if s > 0 {
      var u := ids[1..];
      assert forall j :: 0 <= j < s - 1 ==> u[j] == ids[j + 1];
      CountAround(ids[1..], s - 1, eos);
      assert ids[1..][s..] == ids[s + 1..];
    }
  }

  lemma SecondCount(ids: seq<int>, s: nat, t: nat, eos: int)
    requires s < t < |ids| && ids[t] == eos
    ensures Occurrences(ids[s + 1..], eos) >= 1
  {
    assert ids[s + 1..][t - s - 1] == eos;
  }

  lemma SegmentPrefix(ids: seq<int>, s: nat, t: nat, eos: int)
    requires s < t < |ids| && ids[t] == eos
    ensures ids[..s + 1] + ids[s + 1..t] + [eos] <= ids
    ensures ids[..s + 1][..s] == ids[..s]
  {
    assert ids[..s + 1] + ids[s + 1..t] + [eos] == ids[..t + 1];
  }

  /** A search from `from` stops at the first `v` it meets. */
  lemma IndexFromFinds(ids: seq<int>, v: int, from: nat, t: nat)
    requires from <= t < |ids| && ids[t] == v
    requires forall j :: from <= j < t ==> ids[j] != v
    ensures IndexFrom(ids, v, from) == Some(t)
  {
    assert ids[from..][t - from] == v;
  }

  /** With its first EOS at `s` and the next at `t`, `ids` is cut there. */
  lemma SegmentAt(ids: seq<int>, s: nat, t: nat, eos: int)
    requires s < t < |ids| && ids[s] == eos && ids[t] == eos
    requires forall j :: 0 <= j < s ==> ids[j] != eos
    requires forall j :: s + 1 <= j < t ==> ids[j] != eos
    ensures Segment(ids, eos) == Success(Segments(ids[..s + 1], ids[s + 1..t]))
  {
    IndexFromFinds(ids, eos, 0, s);
    assert ids[0..] == ids;
    IndexFromFinds(ids, eos, s + 1, t);
  }

  /** Every decomposition `src + tgt + [eos] + rest` whose `src` holds exactly
      one EOS, at its end, and whose `tgt` holds none is what `Segment` finds. */
  lemma SegmentComplete(src: seq<int>, tgt: seq<int>, rest: seq<int>, eos: int)
    requires |src| >= 1 && src[|src| - 1] == eos && eos !in src[..|src| - 1]
    requires eos !in tgt
    ensures Segment(src + tgt + [eos] + rest, eos) == Success(Segments(src, tgt))
  {
    var ids := src + tgt + [eos] + rest;
    var s := |src| - 1;
    var t := |src| + |tgt|;
    forall j | 0 <= j < s
      ensures ids[j] != eos
    {
      assert ids[j] == src[..s][j];
    }
    forall j | s + 1 <= j < t
      ensures ids[j] != eos
    {
      assert ids[j] == tgt[j - s - 1];
    }
    SegmentAt(ids, s, t, eos);
    assert ids[..s + 1] == src;
    assert ids[s + 1..t] == tgt;
  }

  /** Python `str.isspace` for one code point: the characters `str.strip()`
      removes when called without arguments. */
  predicate IsSpace(c: char) {
    var n := c as int;
    || (0x09 <= n <= 0x0D) || (0x1C <= n <= 0x20)
    || n == 0x85 || n == 0xA0 || n == 0x1680
    || (0x2000 <= n <= 0x200A) || n == 0x2028 || n == 0x2029
    || n == 0x202F || n == 0x205F || n == 0x3000
  }

  /** Index of the first non-whitespace character at or after `i`, or `|s|`. */
  function SkipSpaces(s: string, i: nat): (j: nat)
    requires i <= |s|
    ensures i <= j <= |s|
    ensures forall k :: i <= k < j ==> IsSpace(s[k])
    ensures j == |s| || !IsSpace(s[j])
    decreases |s| - i
  {
    if i < |s| && IsSpace(s[i]) then SkipSpaces(s, i + 1) else i
  }

  /** End of `s[lo..j]` once its trailing whitespace is dropped. */
  function TrimEnd(s: string, lo: nat, j: nat): (e: nat)
    requires lo <= j <= |s|
    ensures lo <= e <= j
    ensures forall k :: e <= k < j ==> IsSpace(s[k])
    ensures e == lo || !IsSpace(s[e - 1])
    decreases j - lo
  {
    if j > lo && IsSpace(s[j - 1]) then TrimEnd(s, lo, j - 1) else j
  }

  /** `s[a..b]` is what is left once the whitespace around it is removed:
      everything outside is whitespace and a non-empty `s[a..b]` starts and ends
      with a non-whitespace character. */
  ghost predicate StripBounds(s: string, a: nat, b: nat) {
    && a <= b <= |s|
    && (forall k :: 0 <= k < a ==> IsSpace(s[k]))
    && (forall k :: b <= k < |s| ==> IsSpace(s[k]))
    && (a < b ==> !IsSpace(s[a]) && !IsSpace(s[b - 1]))
  }

  /** `str.strip()` without arguments. */
  function Strip(s: string): (r: string)
    ensures exists a: nat, b: nat :: StripBounds(s, a, b) && r == s[a..b]
  {
    var a := SkipSpaces(s, 0);
    var b := TrimEnd(s, a, |s|);
    assert StripBounds(s, a, b);
    s[a..b]
  }

  /** The description `StripBounds` determines the stripped text. */
  lemma StripUnique(s: string, a: nat, b: nat)
    requires StripBounds(s, a, b)
    ensures Strip(s) == s[a..b]
  {
    var a' := SkipSpaces(s, 0);
    var b' := TrimEnd(s, a', |s|);
    assert StripBounds(s, a', b');
    if a < b {
      assert a' == a;
      assert b' == b;
    } else {
      assert a' == b';
    }
  }

  /** Text that neither starts nor ends with whitespace is left unchanged. */
  lemma StripFixed(t: string)
    requires t == [] || (!IsSpace(t[0]) && !IsSpace(t[|t| - 1]))
    ensures Strip(t) == t
  {
    assert StripBounds(t, 0, |t|);
    StripUnique(t, 0, |t|);
    assert t[0..|t|] == t;
  }

  /** Stripping twice is stripping once. */
  lemma StripIdempotent(s: string)
    ensures Strip(Strip(s)) == Strip(s)
  {
    var t := Strip(s);
    var a: nat, b: nat :| StripBounds(s, a, b) && t == s[a..b];
    StripFixed(t);
  }

  /** `str.replace(',', '')`. */
  function RemoveCommas(s: string): (r: string)
    ensures ',' !in r
    ensures |r| <= |s|
  {
    if |s| == 0 then []
    else if s[0] == ',' then RemoveCommas(s[1..])
    else [s[0]] + RemoveCommas(s[1..])
  }

  /** Every comma is deleted and every other character is kept as often as
      it occurs. */
  lemma {:induction false} RemoveCommasCounts(s: string)
    ensures multiset(RemoveCommas(s)) == multiset(s)[',' := 0]
    decreases |s|
  {
    if |s| > 0 {
      assert s == [s[0]] + s[1..];
      RemoveCommasCounts(s[1..]);
    }
  }

  /** Removing commas distributes over concatenation, so every other character
      survives in its original order. */
  lemma {:induction false} RemoveCommasAppend(a: string, b: string)
    ensures RemoveCommas(a + b) == RemoveCommas(a) + RemoveCommas(b)
    decreases |a|
  {
    if |a| > 0 {
      assert (a + b)[1..] == a[1..] + b;
      RemoveCommasAppend(a[1..], b);
    } else {
      assert a + b == b;
    }
  }

  /** A comma between two texts leaves nothing behind: the result is the two
      texts' results, joined. */
  lemma RemoveCommasDrops(a: string, b: string)
    ensures RemoveCommas(a + "," + b) == RemoveCommas(a) + RemoveCommas(b)
  {
    RemoveCommasAppend(a + ",", b);
    RemoveCommasAppend(a, ",");
    assert RemoveCommas(",") == [];
  }

  /** A string without commas is left unchanged. */
  lemma {:induction false} RemoveCommasNoComma(s: string)
    requires ',' !in s
    ensures RemoveCommas(s) == s
    decreases |s|
  {
    if |s| > 0 {
      assert ',' !in s[1..];
      RemoveCommasNoComma(s[1..]);
      assert s == [s[0]] + s[1..];
    }
  }

  /** Lines 29-31. */
  function ExtractAnswer(text: string): (ans: string)
    ensures ',' !in ans
    ensures |ans| <= |text|
  {
    RemoveCommas(Strip(text))
  }

  /** Text already in normal form, stripped and without commas, is its own
      answer. */
  lemma ExtractAnswerFixed(text: string)
    requires ',' !in text && Strip(text) == text
    ensures ExtractAnswer(text) == text
  {
    RemoveCommasNoComma(text);
  }

  lemma ExtractAnswerGrouped()
    ensures ExtractAnswer("1,234") == "1234"
  {
    var t := "1,234";
    StripFixed(t);
    assert t == "1" + "," + "234";
    RemoveCommasDrops("1", "234");
    RemoveCommasNoComma("1");
    RemoveCommasNoComma("234");
  }

  lemma ExtractAnswerPadded()
    ensures ExtractAnswer(" 1234 ") == "1234"
  {
    var t := " 1234 ";
    assert StripBounds(t, 1, 5);
    StripUnique(t, 1, 5);
    assert t[1..5] == "1234";
    RemoveCommasNoComma("1234");
  }

  lemma ExtractAnswerCommaFirst()
    ensures ExtractAnswer(", 5") == " 5"
  {
    var t := ", 5";
    StripFixed(t);
    assert t[1..] == " 5";
    RemoveCommasNoComma(" 5");
    assert RemoveCommas(t) == " 5";
  }

  lemma ExtractAnswerLeadingSpace()
    ensures ExtractAnswer(" 5") == "5"
  {
    var t := " 5";
    assert StripBounds(t, 1, 2);
    StripUnique(t, 1, 2);
    assert t[1..2] == "5";
    RemoveCommasNoComma("5");
  }

  /** `extract_answer` is not idempotent: a comma hiding whitespace from the
      strip exposes it for a second pass. */
  lemma ExtractAnswerNotIdempotent()
    ensures ExtractAnswer(ExtractAnswer(", 5")) != ExtractAnswer(", 5")
  {
    ExtractAnswerCommaFirst();
    ExtractAnswerLeadingSpace();
    assert " 5" != "5";
  }
}

=== FILE: latents.dfy ===
/** Latent extraction of train_large_qonly.py: per example, locate the trace span
    and its anchors; per layer, gather the teacher's hidden state at that
    example's anchor. Hidden states are an abstract element type `E`:
    `H[i][b][t]` is the state of stack `i`, example `b`, position `t`. */
module Latents {
  import opened Wrappers
  import opened Span
  import opened Anchors

  /** The batch has no trace token in example `example`; the uncaught
      `ValueError` aborts the whole batch. */
  datatype BatchError = MalformedBatch(example: nat)

  /** `first_ids` and `relevant_ids` of the source: per example its span start
      and its anchors, one per layer. */
  datatype Selection = Selection(firstIds: seq<nat>, anchors: seq<seq<nat>>)

  /** The clean latents `zs0` (indexed layer, then example), with the
      `first_ids` and `relevant_ids` they were gathered at. */
  datatype Latent<E> = Latent(zs: seq<seq<E>>, firstIds: seq<nat>, anchors: seq<seq<nat>>)

  /** What the span locator and the anchor sampler give for one example. */
  ghost predicate SelectedFrom(mask: seq<bool>, layers: nat, first: nat, anchors: seq<nat>) {
    && Locate(mask).Success?
    && first == Locate(mask).value.first
    && anchors == Anchors.Anchors(first, Locate(mask).value.last, layers)
  }

  /** Lines 57-72 (and 223-238): the per-example loop filling `first_ids` and
      `relevant_ids`; it stops at the first example whose mask has no trace token. */
  method SelectAnchors(masks: seq<seq<bool>>, layers: nat) returns (r: Result<Selection, BatchError>)
    ensures r.Success? <==> forall b :: 0 <= b < |masks| ==> false in masks[b]
    ensures r.Failure? ==>
      && r.error.example < |masks|
      && false !in masks[r.error.example]
      && forall b :: 0 <= b < r.error.example ==> false in masks[b]
    ensures r.Success? ==>
      && |r.value.firstIds| == |masks|
      && |r.value.anchors| == |masks|
      && (forall b :: 0 <= b < |masks| ==> |r.value.anchors[b]| == layers)
      && forall b :: 0 <= b < |masks| ==> SelectedFrom(masks[b], layers, r.value.firstIds[b], r.value.anchors[b])
    ensures r.Success? ==>
      forall b, i :: 0 <= b < |masks| && 0 <= i < layers ==>
        r.value.firstIds[b] <= r.value.anchors[b][i] < |masks[b]|
  {
    var firstIds: seq<nat> := [];
    var anchors: seq<seq<nat>> := [];
    var b := 0;
    while b < |masks|
      invariant 0 <= b <= |masks|
      invariant |firstIds| == b && |anchors| == b
      invariant forall c :: 0 <= c < b ==> false in masks[c]
      invariant forall c :: 0 <= c < b ==> |anchors[c]| == layers
      invariant forall c :: 0 <= c < b ==> SelectedFrom(masks[c], layers, firstIds[c], anchors[c])
      invariant forall c, i :: 0 <= c < b && 0 <= i < layers ==> firstIds[c] <= anchors[c][i] < |masks[c]|
    {
      match Locate(masks[b])
      case Failure(_) =>
        return Failure(MalformedBatch(b));
      case Success(sp) =>
        var ids := Anchors.Anchors(sp.first, sp.last, layers);
        AnchorsInSpan(sp.first, sp.last, layers);
        firstIds := firstIds + [sp.first];
        anchors := anchors + [ids];
      b := b + 1;
    }
    return Success(Selection(firstIds, anchors));
  }

  /** Every example has as many positions in every hidden-state stack as in its
      mask, and there is at least the embedding stack. */
  ghost predicate WellShaped<E>(H: seq<seq<seq<E>>>, masks: seq<seq<bool>>) {
    && |H| >= 1
    && (forall i :: 0 <= i < |H| ==> |H[i]| == |masks|)
    && (forall i, b :: 0 <= i < |H| && 0 <= b < |masks| ==> |H[i][b]| == |masks[b]|)
  }

  /** Lines 76-78 (and 242-246): `hidden_states.gather(1, relevant_ids[:, i])` for
      the stacks `hidden_states_cot[:-1]`. */
  function Gather<E>(H: seq<seq<seq<E>>>, anchors: seq<seq<nat>>): (zs: seq<seq<E>>)
    requires |H| >= 1
    requires forall i :: 0 <= i < |H| - 1 ==> |H[i]| == |anchors|
    requires forall b :: 0 <= b < |anchors| ==> |anchors[b]| == |H| - 1
    requires forall i, b :: 0 <= i < |H| - 1 && 0 <= b < |anchors| ==> anchors[b][i] < |H[i][b]|
    ensures |zs| == |H| - 1
    ensures forall i :: 0 <= i < |zs| ==> |zs[i]| == |anchors|
  {
    seq(|H| - 1, i requires 0 <= i < |H| - 1 =>
      seq(|anchors|, b requires 0 <= b < |anchors| => H[i][b][anchors[b][i]]))
  }

  lemma GatherAt<E>(H: seq<seq<seq<E>>>, anchors: seq<seq<nat>>, i: nat, b: nat)
    requires |H| >= 1
    requires forall i :: 0 <= i < |H| - 1 ==> |H[i]| == |anchors|
    requires forall b :: 0 <= b < |anchors| ==> |anchors[b]| == |H| - 1
    requires forall i, b :: 0 <= i < |H| - 1 && 0 <= b < |anchors| ==> anchors[b][i] < |H[i][b]|
    requires i < |H| - 1 && b < |anchors|
    ensures Gather(H, anchors)[i][b] == H[i][b][anchors[b][i]]
  {
  }

  /** The last stack (`hidden_states_cot[-1]`) is never read: replacing it
      leaves the latents unchanged. */
  lemma GatherIgnoresLastStack<E>(H: seq<seq<seq<E>>>, anchors: seq<seq<nat>>, top: seq<seq<E>>)
    requires |H| >= 1
    requires forall i :: 0 <= i < |H| - 1 ==> |H[i]| == |anchors|
    requires forall b :: 0 <= b < |anchors| ==> |anchors[b]| == |H| - 1
    requires forall i, b :: 0 <= i < |H| - 1 && 0 <= b < |anchors| ==> anchors[b][i] < |H[i][b]|
    ensures Gather(H[..|H| - 1] + [top], anchors) == Gather(H, anchors)
  {
    var H' := H[..|H| - 1] + [top];
    assert forall i :: 0 <= i < |H| - 1 ==> H'[i] == H[i];
  }

  /** `lat` holds the clean latents of the batch: one latent per layer (every
      stack but the last) and per example, each example's span start and
      anchors as `SelectedFrom` describes them, and the latent of layer `i`,
      example `b` being `H[i][b]` at that example's `i`-th anchor, which is in
      range. */
  ghost predicate ExtractedFrom<E>(H: seq<seq<seq<E>>>, masks: seq<seq<bool>>, lat: Latent<E>) {
    && WellShaped(H, masks)
    && |lat.zs| == |H| - 1
    && |lat.firstIds| == |masks|
    && |lat.anchors| == |masks|
    && (forall i :: 0 <= i < |H| - 1 ==> |lat.zs[i]| == |masks|)
    && (forall b :: 0 <= b < |masks| ==> |lat.anchors[b]| == |H| - 1)
    && (forall b :: 0 <= b < |masks| ==> SelectedFrom(masks[b], |H| - 1, lat.firstIds[b], lat.anchors[b]))
    && (forall i, b :: 0 <= i < |H| - 1 && 0 <= b < |masks| ==>
          && lat.anchors[b][i] < |H[i][b]|
          && lat.zs[i][b] == H[i][b][lat.anchors[b][i]])
  }

  /** Lines 55-80 (and 221-247): the clean latents of a batch. The latent of
      layer `i` and example `b` is that example's hidden state in stack `i` at
      its `i`-th anchor; `first_ids[b]` is the example's span start. */
  method Extract<E>(masks: seq<seq<bool>>, H: seq<seq<seq<E>>>) returns (r: Result<Latent<E>, BatchError>)
    requires WellShaped(H, masks)
    ensures r.Failure? <==> exists b :: 0 <= b < |masks| && false !in masks[b]
    ensures r.Success? ==> ExtractedFrom(H, masks, r.value)
  {
    var layers := |H| - 1;
    var selected := SelectAnchors(masks, layers);
    if selected.Failure? {
      return Failure(selected.error);
    }
    var sel := selected.value;
    var zs := Gather(H, sel.anchors);
    forall i, b | 0 <= i < layers && 0 <= b < |masks|
      ensures zs[i][b] == H[i][b][sel.anchors[b][i]]
    {
      GatherAt(H, sel.anchors, i, b);
    }
    r := Success(Latent(zs, sel.firstIds, sel.anchors));
  }

  /** `x.expand(k)` of a single item: `k` copies. */
  function Replicate<T>(k: nat, x: T): (r: seq<T>)
    ensures |r| == k
    ensures forall j :: 0 <= j < k ==> r[j] == x
  {
    seq(k, _ => x)
  }

  datatype BeamInput<E> = BeamInput(firstIds: seq<nat>, zs: seq<seq<E>>)

  /** Lines 118-119: example `i`'s span start and latents, each replicated once
      per beam. */
  function BeamInputs<E>(beams: nat, lat: Latent<E>, i: nat): (r: BeamInput<E>)
    requires i < |lat.firstIds|
    requires forall l :: 0 <= l < |lat.zs| ==> i < |lat.zs[l]|
    ensures |r.firstIds| == beams && |r.zs| == |lat.zs|
    ensures forall j :: 0 <= j < beams ==> r.firstIds[j] == lat.firstIds[i]
    ensures forall l :: 0 <= l < |lat.zs| ==> |r.zs[l]| == beams
    ensures forall l, j :: 0 <= l < |lat.zs| && 0 <= j < beams ==> r.zs[l][j] == lat.zs[l][i]
  {
    BeamInput(Replicate(beams, lat.firstIds[i]),
              seq(|lat.zs|, l requires 0 <= l < |lat.zs| => Replicate(beams, lat.zs[l][i])))
  }

  /** Lines 118-119 over the latents of lines 76-80: every beam of example `i`
      starts at that example's first trace token and receives, for layer `l`,
      the hidden state of stack `l` at the example's `l`-th anchor. */
  lemma BeamOfExtract<E>(beams: nat, H: seq<seq<seq<E>>>, masks: seq<seq<bool>>, lat: Latent<E>, i: nat)
    requires ExtractedFrom(H, masks, lat) && i < |masks|
    ensures var r := BeamInputs(beams, lat, i);
      && |r.firstIds| == beams
      && |r.zs| == |H| - 1
      && (forall j :: 0 <= j < beams ==> r.firstIds[j] == Locate(masks[i]).value.first)
      && (forall l, j :: 0 <= l < |H| - 1 && 0 <= j < beams ==>
            r.zs[l][j] == H[l][i][lat.anchors[i][l]])
  {
    assert SelectedFrom(masks[i], |H| - 1, lat.firstIds[i], lat.anchors[i]);
  }
}

=== FILE: reform.dfy ===
/** The line re-chunking of data/reform_data.py: `chunk` parses two lines of
    the form `question||reasoning####answer\n` into their fields, and the main
    loop writes both problems as one line. */
module Reform {
  import opened Wrappers
  import opened TextSplit

  /** The `IndexError` of `chunk`: `seg[1]` when the line has no `||`, or
      `parts[2]` when the text after it has no `####`. */
  datatype ParseError = NoBarSeparator | NoHashSeparator

  /** Python's `s[:j]`: a negative `j` counts from the end, and both ends are
      clamped to the text. */
  function PySliceTo(s: string, j: int): (r: string)
    ensures r <= s
    ensures 0 <= j ==> |r| == (if j < |s| then j else |s|)
    ensures j < 0 ==> |r| == (if |s| + j < 0 then 0 else |s| + j)
  {
    var e := if j < 0 then (if |s| + j < 0 then 0 else |s| + j) else (if j > |s| then |s| else j);
    s[..e]
  }

  /** Lines 7 and 11: `p[:len(p)-1]`, which drops the last character and
      leaves an empty text empty. */
  function DropLast(s: string): (r: string)
    ensures |s| >= 1 ==> r + [s[|s| - 1]] == s
    ensures |s| == 0 ==> r == s
  {
    PySliceTo(s, |s| - 1)
  }

  /** Line 6 (and 10): `[seg[0]] + seg[1].split("####")`. */
  function Fields(seg0: string, seg1: string): (parts: seq<string>)
    ensures |parts| >= 2 && parts[0] == seg0
    ensures |parts| >= 3 <==> Find(seg1, "####").Some?
  {
    [seg0] + Split(seg1, "####")
  }

  /** Line 7 (and 11): only the third field loses its last character. */
  function TrimThird(parts: seq<string>): (r: seq<string>)
    requires |parts| >= 3
    ensures |r| == |parts|
    ensures r[2] == DropLast(parts[2])
    ensures forall k :: 0 <= k < |parts| && k != 2 ==> r[k] == parts[k]
  {
    parts[2 := DropLast(parts[2])]
  }

  /** Lines 5-7 (and 9-11): the fields of one line, the third without its last
      character. */
  function ParseLine(line: string): (r: Result<seq<string>, ParseError>)
    ensures r == Failure(NoBarSeparator) <==> Find(line, "||").None?
    ensures r == Failure(NoHashSeparator) <==>
      Find(line, "||").Some? && Find(Split(line, "||")[1], "####").None?
    ensures r.Success? ==> |r.value| >= 3
  {
    var seg := Split(line, "||");
    if |seg| < 2 then Failure(NoBarSeparator)
    else
      var parts := Fields(seg[0], seg[1]);
      if |parts| < 3 then Failure(NoHashSeparator)
      else Success(TrimThird(parts))
  }

  /** Parsing reads only the first two `||`-segments. */
  lemma ParseSegments(line: string, seg0: string, seg1: string, more: seq<string>)
    requires Split(line, "||") == [seg0, seg1] + more
    ensures Find(seg1, "####").None? ==> ParseLine(line) == Failure(NoHashSeparator)
    ensures Find(seg1, "####").Some? ==> ParseLine(line) == Success(TrimThird(Fields(seg0, seg1)))
  {
    assert Split(line, "||")[0] == seg0 && Split(line, "||")[1] == seg1;
  }

  /** Two parsed lines. */
  datatype Chunked = Chunked(first: seq<string>, second: seq<string>)

  /** Lines 4-15: `chunk(first, second)`; the first line is parsed first, so
      its error is the one raised. */
  function Chunk(first: string, second: string): (r: Result<Chunked, ParseError>)
    ensures r.Success? <==> ParseLine(first).Success? && ParseLine(second).Success?
    ensures ParseLine(first).Failure? ==> r == Failure(ParseLine(first).error)
    ensures r.Success? ==> r.value == Chunked(ParseLine(first).value, ParseLine(second).value)
  {
    var a :- ParseLine(first);
    var b :- ParseLine(second);
    Success(Chunked(a, b))
  }

  /** Line 30: the two problems side by side in one line. */
  function Concat(a: seq<string>, b: seq<string>): string
    requires |a| >= 3 && |b| >= 3
  {
    a[0] + ", " + b[0] + "||" + a[1] + "," + b[1] + "####" + a[2] + "," + b[2]
  }

  /** Lines 29-31: the line written for two input lines. */
  function ReformPair(first: string, second: string): (r: Result<string, ParseError>)
    ensures r.Success? <==> Chunk(first, second).Success?
  {
    var c :- Chunk(first, second);
    Success(Concat(c.first, c.second) + "\n")
  }

  /** A field that holds neither separator character. */
  predicate Clean(piece: string) {
    '|' !in piece && '#' !in piece
  }

  /** A text cut once by a separator whose first character occurs on neither side. */
  lemma SplitOnce(x: string, sep: string, y: string)
    requires |sep| >= 1 && sep[0] !in x && sep[0] !in y
    ensures Split(x + sep + y, sep) == [x, y]
  {
    SplitAfter(x, sep, y);
    NoLeadChar(y, sep);
  }

  /** The raw fields of a line with one `||` and one `####`. */
  lemma FieldsOnce(x: string, y: string, w: string)
    requires Clean(x) && Clean(y) && '|' !in w && '#' !in w
    ensures Split(x + "||" + (y + "####" + w), "||") == [x, y + "####" + w]
    ensures Fields(x, y + "####" + w) == [x, y, w]
  {
    SplitOnce(x, "||", y + "####" + w);
    SplitOnce(y, "####", w);
  }

  /** A well-formed line parses into its three fields, the newline dropped. */
  lemma ParseFields(x: string, y: string, z: string)
    requires Clean(x) && Clean(y) && Clean(z)
    ensures ParseLine(x + "||" + y + "####" + z + "\n") == Success([x, y, z])
  {
    assert x + "||" + y + "####" + z + "\n" == x + "||" + (y + "####" + (z + ['\n']));
    DropsFinalCharacter(x, y, z, '\n');
  }

  /** Round trip: the written line parses back into the merged fields. */
  lemma ConcatRoundTrip(a: seq<string>, b: seq<string>)
    requires |a| >= 3 && |b| >= 3
    requires forall k :: 0 <= k < 3 ==> Clean(a[k]) && Clean(b[k])
    ensures ParseLine(Concat(a, b) + "\n") == Success([a[0] + ", " + b[0], a[1] + "," + b[1], a[2] + "," + b[2]])
  {
    var x, y, z := a[0] + ", " + b[0], a[1] + "," + b[1], a[2] + "," + b[2];
    assert Clean(a[0]) && Clean(b[0]) && Clean(a[1]) && Clean(b[1]) && Clean(a[2]) && Clean(b[2]);
    assert Clean(x) && Clean(y) && Clean(z);
    assert Concat(a, b) + "\n" == x + "||" + y + "####" + z + "\n";
    ParseFields(x, y, z);
  }

  /** Two well-formed lines are merged field by field. */
  lemma ReformFields(x1: string, y1: string, z1: string, x2: string, y2: string, z2: string)
    requires Clean(x1) && Clean(y1) && Clean(z1) && Clean(x2) && Clean(y2) && Clean(z2)
    ensures ReformPair(x1 + "||" + y1 + "####" + z1 + "\n", x2 + "||" + y2 + "####" + z2 + "\n")
            == Success(x1 + ", " + x2 + "||" + y1 + "," + y2 + "####" + z1 + "," + z2 + "\n")
  {
    ParseFields(x1, y1, z1);
    ParseFields(x2, y2, z2);
  }

  /** Cutting at two `||` in front of `z`. */
  lemma SplitTwice(x: string, y: string, z: string)
    requires '|' !in x && '|' !in y
    ensures Split(x + "||" + y + "||" + z, "||") == [x, y] + Split(z, "||")
  {
    var long := x + "||" + (y + "||" + z);
    assert x + "||" + y + "||" + z == long;
    SplitAfter(x, "||", y + "||" + z);
    SplitAfter(y, "||", z);
  }

  /** Only the first two `||`-segments are read: whatever follows a second
      `||` is discarded. */
  lemma SecondBarDiscarded(x: string, y: string, z: string)
    requires '|' !in x && '|' !in y
    ensures ParseLine(x + "||" + y + "||" + z) == ParseLine(x + "||" + y)
  {
    SplitTwice(x, y, z);
    ParseSegments(x + "||" + y + "||" + z, x, y, Split(z, "||"));
    SplitOnce(x, "||", y);
    ParseSegments(x + "||" + y, x, y, []);
  }

  /** Dropping the last character of `z + [c]` leaves `z`. */
  lemma TrimAppended(x: string, y: string, z: string, c: char)
    ensures TrimThird([x, y, z + [c]]) == [x, y, z]
  {
    var w := z + [c];
    assert w[..|w| - 1] == z;
  }

  /** `p[:len(p)-1]` assumes the line ends in a newline. On a last line
      without one, the answer loses its final character: `q||c####42` gives
      the answer `4`. */
  lemma DropsFinalCharacter(x: string, y: string, z: string, c: char)
    requires Clean(x) && Clean(y) && Clean(z) && c != '|' && c != '#'
    ensures ParseLine(x + "||" + (y + "####" + (z + [c]))) == Success([x, y, z])
  {
    var w := z + [c];
    FieldsOnce(x, y, w);
    ParseSegments(x + "||" + (y + "####" + w), x, y + "####" + w, []);
    TrimAppended(x, y, z, c);
  }

  /** The last line `q||c####42` of a file reads as the answer `4`. */
  lemma LastLineExample()
    ensures ParseLine("q||c####42") == Success(["q", "c", "4"])
  {
    assert "q||c####42" == "q" + "||" + ("c" + "####" + ("4" + ['2']));
    DropsFinalCharacter("q", "c", "4", '2');
  }

  /** The trailing newline, if there is one, removed. */
  function StripNewline(s: string): (r: string)
    ensures r <= s && |s| - 1 <= |r|
    ensures |r| < |s| <==> |s| >= 1 && s[|s| - 1] == '\n'
  {
    if |s| >= 1 && s[|s| - 1] == '\n' then s[..|s| - 1] else s
  }

  /** `ParseLine` with the third field's newline removed rather than its last
      character. */
  function ParseLineIntended(line: string): (r: Result<seq<string>, ParseError>)
    ensures r.Success? <==> ParseLine(line).Success?
    ensures r.Failure? ==> r == ParseLine(line)
  {
    var seg := Split(line, "||");
    if |seg| < 2 then Failure(NoBarSeparator)
    else
      var parts := Fields(seg[0], seg[1]);
      if |parts| < 3 then Failure(NoHashSeparator)
      else Success(parts[2 := StripNewline(parts[2])])
  }

  /** The corrected parser on a line with one `||` and one `####`. */
  lemma IntendedFields(x: string, y: string, w: string)
    requires Clean(x) && Clean(y) && '|' !in w && '#' !in w
    ensures ParseLineIntended(x + "||" + y + "####" + w) == Success([x, y, StripNewline(w)])
  {
    var rest := y + "####" + w;
    assert x + "||" + y + "####" + w == x + "||" + rest;
    FieldsOnce(x, y, w);
    assert Split(x + "||" + rest, "||") == [x, rest];
    assert [x, y, w][2 := StripNewline(w)] == [x, y, StripNewline(w)];
  }

  /** A line with a second `####`: the third field is the text between the
      two, and the code as written drops its last character even when the
      line ends with a newline, while the corrected parser keeps it. */
  lemma ExtraHashDropsCharacter(x: string, y: string, z: string, w: string)
    requires Clean(x) && Clean(y) && Clean(z) && Clean(w)
    ensures ParseLine(x + "||" + y + "####" + z + "####" + w) == Success([x, y, DropLast(z), w])
    ensures ParseLineIntended(x + "||" + y + "####" + z + "####" + w) == Success([x, y, StripNewline(z), w])
  {
    var rest := y + "####" + (z + "####" + w);
    assert x + "||" + y + "####" + z + "####" + w == x + "||" + rest;
    FieldsTwice(x, y, z, w);
    assert [x, y, z, w][2 := DropLast(z)] == [x, y, DropLast(z), w];
    assert [x, y, z, w][2 := StripNewline(z)] == [x, y, StripNewline(z), w];
  }

  /** The raw fields of a line with one `||` and two `####`. */
  lemma FieldsTwice(x: string, y: string, z: string, w: string)
    requires Clean(x) && Clean(y) && Clean(z) && Clean(w)
    ensures Split(x + "||" + (y + "####" + (z + "####" + w)), "||") == [x, y + "####" + (z + "####" + w)]
    ensures Fields(x, y + "####" + (z + "####" + w)) == [x, y, z, w]
  {
    SplitOnce(x, "||", y + "####" + (z + "####" + w));
    SplitAfter(y, "####", z + "####" + w);
    SplitOnce(z, "####", w);
  }

  /** `a||b####c####d\n` reads as the third field `""` rather than `"c"`. */
  lemma ExtraHashExample()
    ensures ParseLine("a||b####c####d\n") == Success(["a", "b", "", "d\n"])
    ensures ParseLineIntended("a||b####c####d\n") == Success(["a", "b", "c", "d\n"])
  {
    assert "a||b####c####d\n" == "a" + "||" + "b" + "####" + "c" + "####" + "d\n";
    ExtraHashDropsCharacter("a", "b", "c", "d\n");
  }

  /** The corrected parser reads a well-formed line the same with or without
      its final newline, and on newline-terminated lines agrees with the code. */
  lemma IntendedIgnoresNewline(x: string, y: string, z: string)
    requires Clean(x) && Clean(y) && Clean(z)
    requires |z| == 0 || z[|z| - 1] != '\n'
    ensures ParseLineIntended(x + "||" + y + "####" + z) == Success([x, y, z])
    ensures ParseLineIntended(x + "||" + y + "####" + z + "\n") == Success([x, y, z])
    ensures ParseLine(x + "||" + y + "####" + z + "\n") == Success([x, y, z])
  {
    IntendedFields(x, y, z);
    var w := z + "\n";
    assert x + "||" + y + "####" + z + "\n" == x + "||" + y + "####" + w;
    IntendedFields(x, y, w);
    assert w[..|w| - 1] == z;
    ParseFields(x, y, z);
  }
}

=== FILE: rounding.dfy ===
/** `torch.round` applied to the exact rational `n / d`: round to the nearest
    integer, and on an exact tie to the even neighbour. */
module Rounding {

  function Abs(x: int): nat {
    if x < 0 then -x else x
  }

  /** `r` is the integer nearest to `n / d`; on a tie (distance exactly one half)
      it is the even one. Stated by cross-multiplying, so no division occurs. */
  ghost predicate IsNearestEven(n: int, d: int, r: int)
    requires d >= 1
  {
    && 2 * Abs(n - r * d) <= d
    && (2 * Abs(n - r * d) == d ==> r % 2 == 0)
  }

  lemma MulNat(a: nat, b: nat)
    ensures a * b >= 0
  {
  }

  lemma MulSucc(q: int, d: int)
    ensures (q + 1) * d == q * d + d
  {
  }

  lemma DivModParts(n: nat, d: nat)
    requires d >= 1
    ensures n == (n / d) * d + n % d
    ensures 0 <= n % d < d
  {
  }

  /** Multiples of `d` at distinct factors are at least `d` apart, and exactly
      `d` apart only for neighbouring factors. */
  lemma MulGap(a: int, b: int, d: int)
    requires d >= 1 && a < b
    ensures b * d - a * d >= d
    ensures b * d - a * d == d ==> b == a + 1
  {
    assert b * d - a * d == (b - a) * d;
    if b - a >= 2 {
      assert (b - a) * d >= 2 * d;
    }
  }

  /** Round half to even of `n / d`, computed from the quotient and remainder. */
  function RoundHalfEven(n: nat, d: nat): (r: nat)
    requires d >= 1
    ensures IsNearestEven(n, d, r)
  {
    var q := n / d;
    var rem := n % d;
    DivModParts(n, d);
    MulSucc(q, d);
    if 2 * rem < d then q
    else if 2 * rem > d then q + 1
    else if q % 2 == 0 then q
    else q + 1
  }

  /** Two integers nearest to `n / d` with ties to even coincide. */
  lemma NearestEvenUnique(n: int, d: int, r1: int, r2: int)
    requires d >= 1
    requires IsNearestEven(n, d, r1) && IsNearestEven(n, d, r2)
    ensures r1 == r2
  {
    if r1 < r2 {
      MulGap(r1, r2, d);
    } else if r2 < r1 {
      MulGap(r2, r1, d);
    }
  }

  /** Rounding a multiple of the denominator is exact. */
  lemma RoundExact(k: nat, d: nat)
    requires d >= 1
    ensures RoundHalfEven(k * d, d) == k
  {
    NearestEvenUnique(k * d, d, RoundHalfEven(k * d, d), k);
  }

  /** Rounding is monotone in the numerator. */
  lemma RoundMonotone(n1: nat, n2: nat, d: nat)
    requires d >= 1
    requires n1 <= n2
    ensures RoundHalfEven(n1, d) <= RoundHalfEven(n2, d)
  {
    var r1, r2 := RoundHalfEven(n1, d), RoundHalfEven(n2, d);
    if r2 < r1 {
      MulGap(r2, r1, d);
      NearestEvenUnique(n1, d, r1, r2);
    }
  }
}

=== FILE: schedule.dfy ===
/** The gradient-accumulation schedule of the training loop of
    train_large_qonly.py: one global `step` counter, set to zero once before
    the first epoch and incremented after every batch, and an optimizer step
    (with `zero_grad`) whenever `step % accumulate == accumulate - 1`. */
module Schedule {
  import opened Wrappers

  /** Python's `a % k`: the remainder takes the sign of `k` (floored division);
      `k == 0` raises `ZeroDivisionError`. */
  function PyMod(a: int, k: int): (m: int)
    requires k != 0
    ensures k > 0 ==> 0 <= m < k
    ensures k < 0 ==> k < m <= 0
    ensures k > 0 ==> m == a % k
  {
    var e := a % k;
    if k < 0 && e != 0 then e + k else e
  }

  /** Python's `a // k`, rounding toward negative infinity. */
  function FloorDiv(a: int, k: int): int
    requires k != 0
  {
    if k < 0 && a % k != 0 then a / k - 1 else a / k
  }

  /** `divmod` in Python: `a == (a // k) * k + a % k`, so `PyMod` is the
      remainder that goes with floored division. */
  lemma PyDivMod(a: int, k: int)
    requires k != 0
    ensures a == FloorDiv(a, k) * k + PyMod(a, k)
  {
    assert a == (a / k) * k + a % k;
    assert (a / k - 1) * k == (a / k) * k - k;
  }

  /** Training progress: batches seen, optimizer steps taken, and backward
      passes whose gradients are accumulated but not yet applied. */
  datatype Progress = Progress(step: nat, updates: nat, pending: nat)

  /** `step % args.accumulate` with `args.accumulate == 0`. */
  datatype ScheduleError = ZeroAccumulate

  const Start := Progress(0, 0, 0)

  /** Lines 278-283 and 296: the backward pass of one batch, then an optimizer
      step when the schedule says so, then `step += 1`. */
  function Batch(p: Progress, k: int): (r: Result<Progress, ScheduleError>)
    ensures r.Failure? <==> k == 0
    ensures r.Success? ==> r.value.step == p.step + 1
    ensures r.Success? && k > 0 ==>
      (r.value.updates == p.updates + 1 <==> p.step % k == k - 1)
    ensures r.Success? ==>
      if r.value.updates == p.updates then r.value.pending == p.pending + 1
      else r.value.updates == p.updates + 1 && r.value.pending == 0
  {
    if k == 0 then Failure(ZeroAccumulate)
    else if PyMod(p.step, k) == k - 1 then Success(Progress(p.step + 1, p.updates + 1, 0))
    else Success(Progress(p.step + 1, p.updates, p.pending + 1))
  }

  /** `n` consecutive batches. */
  function Run(p: Progress, k: int, n: nat): (r: Result<Progress, ScheduleError>)
    ensures r.Success? ==> r.value.step == p.step + n
    decreases n
  {
    if n == 0 then Success(p)
    else
      var q :- Run(p, k, n - 1);
      Batch(q, k)
  }

  /** A multiple of `k` strictly between `-k` and `k` is zero. */
  lemma MulAtLeast(x: int, k: int)
    requires k > 0
    ensures x >= 1 ==> x * k >= k
    ensures x <= -1 ==> x * k <= -k
  {
    if x >= 1 {
      assert x * k == (x - 1) * k + k;
      assert (x - 1) * k >= 0;
    } else if x <= -1 {
      assert x * k == -((-x - 1) * k) - k;
      assert (-x - 1) * k >= 0;
    }
  }

  /** Python's `n // k` and `n % k` are fixed by `n == q*k + r`, `0 <= r < k`. */
  lemma DivModUnique(n: int, k: int, q: int, r: int)
    requires k > 0 && 0 <= r < k && n == q * k + r
    ensures n / k == q && n % k == r
  {
    var q', r' := n / k, n % k;
    assert n == q' * k + r';
    assert (q - q') * k == r' - r;
    MulAtLeast(q - q', k);
  }

  /** One batch moves the count of `n` batches to the count of `n + 1`. */
  lemma BatchCounts(k: int, n: nat)
    requires k >= 1
    ensures Batch(Progress(n, n / k, n % k), k) == Success(Progress(n + 1, (n + 1) / k, (n + 1) % k))
  {
    var q, r := n / k, n % k;
    assert n == q * k + r;
    if r == k - 1 {
      assert (q + 1) * k == q * k + k;
      DivModUnique(n + 1, k, q + 1, 0);
    } else {
      DivModUnique(n + 1, k, q, r + 1);
    }
  }

  /** With `accumulate = k >= 1`, after `n` batches from the start the
      optimizer has stepped `n / k` times and the last `n % k` backward passes
      are still waiting. */
  lemma {:induction false} RunFromStart(k: int, n: nat)
    requires k >= 1
    ensures Run(Start, k, n) == Success(Progress(n, n / k, n % k))
  {
    if n > 0 {
      RunFromStart(k, n - 1);
      BatchCounts(k, n - 1);
    }
  }

  /** A negative `accumulate` never meets the condition: Python's remainder is
      then at least `k`, never `k - 1`. Gradients accumulate forever. */
  lemma {:induction false} NegativeNeverSteps(p: Progress, k: int, n: nat)
    requires k < 0
    ensures Run(p, k, n) == Success(Progress(p.step + n, p.updates, p.pending + n))
  {
    if n > 0 {
      NegativeNeverSteps(p, k, n - 1);
    }
  }

  /** `accumulate == 0` aborts on the first batch. */
  lemma ZeroFails(p: Progress, n: nat)
    requires n >= 1
    ensures Run(p, 0, n) == Failure(ZeroAccumulate)
  {
    if n > 1 {
      ZeroFails(p, n - 1);
    }
  }

  /** Running `a` batches and then `b` more is running `a + b`. */
  lemma {:induction false} RunAppend(p: Progress, k: int, a: nat, b: nat)
    ensures Run(p, k, a + b) == (match Run(p, k, a)
                                 case Success(q) => Run(q, k, b)
                                 case Failure(e) => Failure(e))
    decreases b
  {
    if b > 0 {
      RunAppend(p, k, a, b - 1);
      assert a + b - 1 == a + (b - 1);
    }
  }

  /** Lines 197-199: the epochs, `epochs[e]` batches in epoch `e`, run one after
      another with the same `step` counter. */
  function Train(p: Progress, k: int, epochs: seq<nat>): (r: Result<Progress, ScheduleError>)
    ensures r.Success? ==> r.value.step >= p.step
    decreases |epochs|
  {
    if |epochs| == 0 then Success(p)
    else
      var q :- Run(p, k, epochs[0]);
      Train(q, k, epochs[1..])
  }

  function Total(epochs: seq<nat>): nat {
    if |epochs| == 0 then 0 else epochs[0] + Total(epochs[1..])
  }

  /** `step` is not reset between epochs: training epoch by epoch is one run
      over all batches, so an accumulation window can straddle two epochs. */
  lemma {:induction false} TrainIsOneRun(p: Progress, k: int, epochs: seq<nat>)
    ensures Train(p, k, epochs) == Run(p, k, Total(epochs))
    decreases |epochs|
  {
    if |epochs| > 0 {
      RunAppend(p, k, epochs[0], Total(epochs[1..]));
      match Run(p, k, epochs[0])
      case Success(q) => TrainIsOneRun(q, k, epochs[1..]);
      case Failure(_) =>
    }
  }

  /** Two epochs of three batches with `accumulate = 4`: one optimizer step,
      taken in the second epoch, and two backward passes left over. */
  lemma StraddleExample()
    ensures Train(Start, 4, [3, 3]) == Success(Progress(6, 1, 2))
  {
    TrainIsOneRun(Start, 4, [3, 3]);
    assert Total([3, 3]) == 6;
    RunFromStart(4, 6);
  }
}

=== FILE: scoring.dfy ===
/** The accuracy bookkeeping of train_large_qonly.py: masked next-token
    accuracy counts, the per-example exact-match count of `evaluate`, and the
    final ratios. */
module Scoring {
  import opened Wrappers
  import opened Answer

  /** Number of positions `j` in `[1, n)` whose label is not ignored
      (`labels[..., 1:].ge(0)`). */
  function ValidCount(labels: seq<int>, n: nat): nat
    requires n <= |labels|
  {
    if n <= 1 then 0
    else ValidCount(labels, n - 1) + (if labels[n - 1] >= 0 then 1 else 0)
  }

  /** Number of positions `j` in `[1, n)` whose label is not ignored and is the
      token predicted at `j - 1` (`labels_pred[..., :-1] == labels[..., 1:]`). */
  function HitCount(pred: seq<int>, labels: seq<int>, n: nat): nat
    requires |pred| == |labels| && n <= |labels|
  {
    if n <= 1 then 0
    else HitCount(pred, labels, n - 1) + (if labels[n - 1] >= 0 && pred[n - 2] == labels[n - 1] then 1 else 0)
  }

  /** A hit is a valid position, so hits never exceed valid positions, and
      there are at most `n - 1` of those. */
  lemma {:induction false} HitsAtMostValid(pred: seq<int>, labels: seq<int>, n: nat)
    requires |pred| == |labels| && n <= |labels|
    ensures HitCount(pred, labels, n) <= ValidCount(labels, n)
    ensures n >= 1 ==> ValidCount(labels, n) <= n - 1
  {
    if n > 1 {
      HitsAtMostValid(pred, labels, n - 1);
    }
  }

  /** Lines 90-92 (and 260-261) for one example. */
  method TokenCounts(pred: seq<int>, labels: seq<int>) returns (correct: nat, total: nat)
    requires |pred| == |labels|
    ensures total == ValidCount(labels, |labels|)
    ensures correct == HitCount(pred, labels, |labels|)
    ensures correct <= total
  {
    correct, total := 0, 0;
    if |labels| == 0 {
      return;
    }
    var j := 1;
    while j < |labels|
      invariant 1 <= j <= |labels|
      invariant total == ValidCount(labels, j)
      invariant correct == HitCount(pred, labels, j)
    {
      if labels[j] >= 0 {
        total := total + 1;
        if pred[j - 1] == labels[j] {
          correct := correct + 1;
        }
      }
      j := j + 1;
    }
    HitsAtMostValid(pred, labels, |labels|);
  }

  /** Sums of the per-example counts over the first `m` examples of a batch. */
  function BatchValid(labels: seq<seq<int>>, m: nat): nat
    requires m <= |labels|
  {
    if m == 0 then 0 else BatchValid(labels, m - 1) + ValidCount(labels[m - 1], |labels[m - 1]|)
  }

  function BatchHits(preds: seq<seq<int>>, labels: seq<seq<int>>, m: nat): nat
    requires |preds| == |labels| && m <= |labels|
    requires forall b :: 0 <= b < |labels| ==> |preds[b]| == |labels[b]|
  {
    if m == 0 then 0
    else BatchHits(preds, labels, m - 1) + HitCount(preds[m - 1], labels[m - 1], |labels[m - 1]|)
  }

  /** Lines 89-92 (and 258-261): the `.sum()` over a whole batch. */
  method BatchTokenCounts(preds: seq<seq<int>>, labels: seq<seq<int>>) returns (correct: nat, total: nat)
    requires |preds| == |labels|
    requires forall b :: 0 <= b < |labels| ==> |preds[b]| == |labels[b]|
    ensures total == BatchValid(labels, |labels|)
    ensures correct == BatchHits(preds, labels, |labels|)
    ensures correct <= total
  {
    correct, total := 0, 0;
    var b := 0;
    while b < |labels|
      invariant 0 <= b <= |labels|
      invariant total == BatchValid(labels, b)
      invariant correct == BatchHits(preds, labels, b)
      invariant correct <= total
    {
      var c, t := TokenCounts(preds[b], labels[b]);
      correct, total := correct + c, total + t;
      b := b + 1;
    }
  }

  /** Python's `ZeroDivisionError` for `x / 0` on integers. */
  datatype ZeroDivision = ZeroDivision

  /** Lines 135-136: `num / den` as a Python true division of integers. */
  function Ratio(num: nat, den: nat): (r: Result<real, ZeroDivision>)
    ensures r.Failure? <==> den == 0
    ensures r.Success? ==> r.value * (den as real) == num as real
    ensures r.Success? && num <= den ==> 0.0 <= r.value <= 1.0
  {
    if den == 0 then Failure(ZeroDivision) else Success((num as real) / (den as real))
  }

  /** Ten examples of which seven match give an accuracy of 0.7. */
  lemma RatioExample()
    ensures Ratio(7, 10) == Success(0.7)
  {
  }

  /** Lines 105-106, 124 and 129-131: whether one example's prediction matches,
      after `extract_answer` on both sides. `decode` and `decodeSkip` stand for
      `tokenizer.decode` without and with `skip_special_tokens`. The prediction
      is `beam_output[0][sep_idx+1:]`, a Python slice that is empty when the
      output is shorter. */
  function ScoreExample(ids: seq<int>, eos: int, output: seq<int>,
                        decode: seq<int> -> string, decodeSkip: seq<int> -> string): (r: Result<bool, SegmentError>)
    ensures r.Failure? <==> Occurrences(ids, eos) < 2
    ensures r == Failure(NoFirstEos) <==> Occurrences(ids, eos) == 0
  {
    var seg :- Segment(ids, eos);
    var ans := ExtractAnswer(decode(seg.tgt));
    var predicted := if |seg.src| <= |output| then output[|seg.src|..] else [];
    var predAns := ExtractAnswer(decodeSkip(predicted));
    Success(ans == predAns)
  }

  /** When the generated sequence repeats the prompt `src` (as `generate`
      returns it), the prediction compared is exactly the continuation. */
  lemma ScoreContinuation(src: seq<int>, tgt: seq<int>, rest: seq<int>, eos: int, gen: seq<int>,
                          decode: seq<int> -> string, decodeSkip: seq<int> -> string)
    requires |src| >= 1 && src[|src| - 1] == eos && eos !in src[..|src| - 1]
    requires eos !in tgt
    ensures ScoreExample(src + tgt + [eos] + rest, eos, src + gen, decode, decodeSkip)
            == Success(ExtractAnswer(decode(tgt)) == ExtractAnswer(decodeSkip(gen)))
  {
    SegmentComplete(src, tgt, rest, eos);
    assert (src + gen)[|src|..] == gen;
  }

  /** Reference and prediction "1,234" and "1234" count as a match. */
  lemma ExactMatchExample()
    ensures ExtractAnswer("1,234") == ExtractAnswer("1234")
  {
    ExtractAnswerGrouped();
    StripFixed("1234");
    ExtractAnswerFixed("1234");
  }

  datatype Example = Example(ids: seq<int>, output: seq<int>)

  /** The example holds the two EOS tokens that segmentation needs. */
  predicate Segmentable(e: Example, eos: int) {
    Occurrences(e.ids, eos) >= 2
  }

  /** Number of `true` entries. */
  function CountTrue(bs: seq<bool>): (n: nat)
    ensures n <= |bs|
  {
    if |bs| == 0 then 0 else CountTrue(bs[..|bs| - 1]) + (if bs[|bs| - 1] then 1 else 0)
  }

  /** `total_correct` and `total_instances`. */
  datatype ExactTally = ExactTally(correct: nat, instances: nat)

  /** Reference definition of the evaluation of a batch under the per-example
      comparison `score`: the outcomes of the examples in order, or the error
      of the first example whose comparison fails. */
  function Outcomes(examples: seq<Example>, score: Example -> Result<bool, SegmentError>): (r: Result<seq<bool>, SegmentError>)
    ensures r.Success? ==> |r.value| == |examples|
    decreases |examples|
  {
    if |examples| == 0 then Success([])
    else
      var n := |examples| - 1;
      var prefix :- Outcomes(examples[..n], score);
      var b :- score(examples[n]);
      Success(prefix + [b])
  }

  /** The batch evaluates without error exactly when every comparison does. */
  lemma {:induction false} OutcomesSucceed(examples: seq<Example>, score: Example -> Result<bool, SegmentError>)
    ensures Outcomes(examples, score).Success? <==> forall k :: 0 <= k < |examples| ==> score(examples[k]).Success?
    decreases |examples|
  {
    if |examples| > 0 {
      var n := |examples| - 1;
      var prefix := examples[..n];
      OutcomesSucceed(prefix, score);
      assert forall k :: 0 <= k < n ==> prefix[k] == examples[k];
    }
  }

  /** Each outcome is that example's comparison. */
  lemma {:induction false} OutcomesAt(examples: seq<Example>, score: Example -> Result<bool, SegmentError>, k: nat)
    requires Outcomes(examples, score).Success? && k < |examples|
    ensures score(examples[k]) == Success(Outcomes(examples, score).value[k])
    decreases |examples|
  {
    var n := |examples| - 1;
    var prefix := examples[..n];
    if k < n {
      OutcomesAt(prefix, score, k);
      assert prefix[k] == examples[k];
    }
  }

  /** A failed comparison of example `i`, after the examples before it
      succeeded, is the error of the whole batch: later examples are never
      looked at. */
  lemma {:induction false} OutcomesFailAt(examples: seq<Example>, score: Example -> Result<bool, SegmentError>, i: nat)
    requires i < |examples|
    requires Outcomes(examples[..i], score).Success?
    requires score(examples[i]).Failure?
    ensures Outcomes(examples, score) == Failure(score(examples[i]).error)
    decreases |examples|
  {
    var n := |examples| - 1;
    var prefix := examples[..n];
    if i < n {
      assert prefix[..i] == examples[..i];
      assert prefix[i] == examples[i];
      OutcomesFailAt(prefix, score, i);
    } else {
      assert examples[..i] == prefix;
    }
  }

  /** The comparison of lines 105-131 as a function of the example. */
  function ScoreOf(eos: int, decode: seq<int> -> string, decodeSkip: seq<int> -> string): Example -> Result<bool, SegmentError> {
    (e: Example) => ScoreExample(e.ids, eos, e.output, decode, decodeSkip)
  }

  /** A batch evaluates without error exactly when every example holds two EOS
      tokens. */
  lemma BatchSucceeds(examples: seq<Example>, eos: int, decode: seq<int> -> string, decodeSkip: seq<int> -> string)
    ensures Outcomes(examples, ScoreOf(eos, decode, decodeSkip)).Success?
            <==> forall k :: 0 <= k < |examples| ==> Segmentable(examples[k], eos)
  {
    var score := ScoreOf(eos, decode, decodeSkip);
    OutcomesSucceed(examples, score);
    assert forall k :: 0 <= k < |examples| ==> (score(examples[k]).Success? <==> Segmentable(examples[k], eos));
  }

  /** Lines 97-132 for one batch, for any per-example comparison `score`: one
      instance per example, one more correct per match; `matched` records the
      comparisons made. The first comparison that fails aborts the loop. */
  method CountMatches(examples: seq<Example>, score: Example -> Result<bool, SegmentError>)
    returns (r: Result<ExactTally, SegmentError>, matched: seq<bool>)
    ensures r.Failure? ==> Outcomes(examples, score) == Failure(r.error)
    ensures r.Success? ==> Outcomes(examples, score) == Success(matched)
    ensures r.Success? ==> r.value == ExactTally(CountTrue(matched), |examples|)
  {
    var correct, instances := 0, 0;
    matched := [];
    while instances < |examples|
      invariant instances <= |examples|
      invariant Outcomes(examples[..instances], score) == Success(matched)
      invariant correct == CountTrue(matched)
    {
      var s := score(examples[instances]);
      if s.Failure? {
        OutcomesFailAt(examples, score, instances);
        return Failure(s.error), matched;
      }
      assert examples[..instances + 1][..instances] == examples[..instances];
      matched := matched + [s.value];
      if s.value {
        correct := correct + 1;
      }
      instances := instances + 1;
    }
    assert examples[..instances] == examples;
    r := Success(ExactTally(correct, instances));
  }

  /** Lines 97-132 with the comparison of `evaluate`: the first example
      without two EOS tokens aborts the evaluation. */
  method ExactMatches(examples: seq<Example>, eos: int,
                      decode: seq<int> -> string, decodeSkip: seq<int> -> string)
    returns (r: Result<ExactTally, SegmentError>, matched: seq<bool>)
    ensures r.Failure? ==> Outcomes(examples, ScoreOf(eos, decode, decodeSkip)) == Failure(r.error)
    ensures r.Success? ==> Outcomes(examples, ScoreOf(eos, decode, decodeSkip)) == Success(matched)
    ensures r.Success? ==> r.value == ExactTally(CountTrue(matched), |examples|)
  {
    r, matched := CountMatches(examples, ScoreOf(eos, decode, decodeSkip));
  }

  /** The counters of `evaluate`, summed over batches. */
  datatype Tally = Tally(wordCorrect: nat, total: nat, totalCorrect: nat, totalInstances: nat)

  ghost predicate Consistent(t: Tally) {
    t.wordCorrect <= t.total && t.totalCorrect <= t.totalInstances
  }

  /** Adding one batch's counts (lines 91-92, 98, 132) keeps every numerator
      within its denominator. */
  function AddBatch(t: Tally, wordCorrect: nat, total: nat, exact: ExactTally): (t': Tally)
    requires Consistent(t) && wordCorrect <= total && exact.correct <= exact.instances
    ensures Consistent(t')
    ensures t'.total - t.total == total && t'.totalInstances - t.totalInstances == exact.instances
    ensures t'.wordCorrect - t.wordCorrect == wordCorrect && t'.totalCorrect - t.totalCorrect == exact.correct
  {
    Tally(t.wordCorrect + wordCorrect, t.total + total, t.totalCorrect + exact.correct, t.totalInstances + exact.instances)
  }

  datatype Accuracies = Accuracies(accuracy: real, wordAccuracy: real)

  /** Lines 135-136: `word_correct / total` is evaluated first, then
      `total_correct / total_instances`; either zero denominator raises. */
  function Report(t: Tally): (r: Result<Accuracies, ZeroDivision>)
    ensures r.Failure? <==> t.total == 0 || t.totalInstances == 0
    ensures r.Success? && Consistent(t) ==> 0.0 <= r.value.accuracy <= 1.0 && 0.0 <= r.value.wordAccuracy <= 1.0
    ensures r.Success? ==> r.value.accuracy * (t.totalInstances as real) == t.totalCorrect as real
    ensures r.Success? ==> r.value.wordAccuracy * (t.total as real) == t.wordCorrect as real
  {
    var word :- Ratio(t.wordCorrect, t.total);
    var acc :- Ratio(t.totalCorrect, t.totalInstances);
    Success(Accuracies(acc, word))
  }
}

=== FILE: span.dfy ===
/** The span locator of train_large_qonly.py: given one example's trace mask
    (`labels_cot_shift < 0`, so `false` marks a reasoning-trace token), find the
    half-open span `[first, last)` of the first run of trace tokens. */
module Span {
  import opened Wrappers

  /** Python's `s[from:].index(v) + from`: the first position at or after
      `from` holding `v`, or `None` where Python raises `ValueError`. */
  function IndexFrom<T(==)>(s: seq<T>, v: T, from: nat): (r: Option<nat>)
    requires from <= |s|
    ensures r.None? ==> forall j :: from <= j < |s| ==> s[j] != v
    ensures r.Some? ==> from <= r.value < |s| && s[r.value] == v
    ensures r.Some? ==> forall j :: from <= j < r.value ==> s[j] != v
    decreases |s| - from
  {
    if from == |s| then None
    else if s[from] == v then Some(from)
    else IndexFrom(s, v, from + 1)
  }

  /** Python's `list.index(v)`. */
  function Index<T(==)>(s: seq<T>, v: T): (r: Option<nat>)
    ensures r.None? <==> v !in s
    ensures r.Some? ==> r.value < |s| && s[r.value] == v
    ensures r.Some? ==> forall j :: 0 <= j < r.value ==> s[j] != v
  {
    IndexFrom(s, v, 0)
  }

  /** Trace-mask entry derived from a shifted label: ignored labels are negative. */
  function TraceMask(labelsShift: seq<int>): (mask: seq<bool>)
    ensures |mask| == |labelsShift|
    ensures forall j :: 0 <= j < |mask| ==> (!mask[j] <==> labelsShift[j] >= 0)
  {
    seq(|labelsShift|, j requires 0 <= j < |labelsShift| => labelsShift[j] < 0)
  }

  datatype TraceSpan = TraceSpan(first: nat, last: nat)

  /** The mask has no `false` entry, so `mask_id_list.index(False)` raises. */
  datatype SpanError = NoTraceToken

  /** `sp` is the first maximal run of `false` entries of `mask`: every earlier
      entry is `true`, every entry of the run is `false`, and the run ends at
      a `true` entry or at the end of the mask. */
  ghost predicate IsFirstTraceRun(mask: seq<bool>, sp: TraceSpan) {
    && sp.first < sp.last <= |mask|
    && (forall j :: 0 <= j < sp.first ==> mask[j])
    && (forall j :: sp.first <= j < sp.last ==> !mask[j])
    && (sp.last == |mask| || mask[sp.last])
  }

  /** Lines 59-67: `first = index(False)`; `last = mask[first:].index(True) + first`,
      or `len(mask)` when that raises. */
  function Locate(mask: seq<bool>): (r: Result<TraceSpan, SpanError>)
    ensures r.Failure? <==> false !in mask
    ensures r.Success? ==> IsFirstTraceRun(mask, r.value)
  {
    match Index(mask, false)
    case None => Failure(NoTraceToken)
    case Some(first) =>
      var last := match Index(mask[first..], true)
        case None => |mask|
        case Some(k) => k + first;
      Success(TraceSpan(first, last))
  }

  /** At most one span satisfies the first-run description, so `Locate` is the
      only possible answer. */
  lemma FirstTraceRunUnique(mask: seq<bool>, a: TraceSpan, b: TraceSpan)
    requires IsFirstTraceRun(mask, a) && IsFirstTraceRun(mask, b)
    ensures a == b
  {
    assert !mask[a.first] && !mask[b.first];
    assert a.first == b.first;
    assert a.last < |mask| ==> mask[a.last];
    assert b.last < |mask| ==> mask[b.last];
  }

  /** Whenever a first trace run exists, `Locate` finds it. */
  lemma LocateComplete(mask: seq<bool>, sp: TraceSpan)
    requires IsFirstTraceRun(mask, sp)
    ensures Locate(mask) == Success(sp)
  {
    assert !mask[sp.first];
    FirstTraceRunUnique(mask, Locate(mask).value, sp);
  }

  /** The worked example: mask [T,T,F,F,F,T,T] gives the span (2, 5). */
  lemma LocateExample()
    ensures Locate([true, true, false, false, false, true, true]) == Success(TraceSpan(2, 5))
  {
    LocateComplete([true, true, false, false, false, true, true], TraceSpan(2, 5));
  }

  /** A trace that runs to the end of the sequence closes at `len(mask)`. */
  lemma LocateUnclosed(mask: seq<bool>, first: nat)
    requires first < |mask|
    requires forall j :: 0 <= j < first ==> mask[j]
    requires forall j :: first <= j < |mask| ==> !mask[j]
    ensures Locate(mask) == Success(TraceSpan(first, |mask|))
  {
    LocateComplete(mask, TraceSpan(first, |mask|));
  }

  /** Lines 46 and 62 together: locating the trace in the mask built from the
      shifted labels fails exactly when every shifted label is ignored. */
  lemma MaskLocate(labelsShift: seq<int>)
    ensures Locate(TraceMask(labelsShift)).Failure? <==>
      forall j :: 0 <= j < |labelsShift| ==> labelsShift[j] < 0
  {
    var mask := TraceMask(labelsShift);
    if false in mask {
      var j :| 0 <= j < |mask| && !mask[j];
      assert labelsShift[j] >= 0;
    } else {
      forall j | 0 <= j < |labelsShift|
        ensures labelsShift[j] < 0
      {
        assert mask[j] in mask;
      }
    }
  }

  /** On success the span starts at the first position whose shifted label
      is not ignored, and covers exactly the run of such positions there. */
  lemma MaskTraceRun(labelsShift: seq<int>)
    requires Locate(TraceMask(labelsShift)).Success?
    ensures var sp := Locate(TraceMask(labelsShift)).value;
      && sp.first < sp.last <= |labelsShift|
      && (forall j :: 0 <= j < sp.first ==> labelsShift[j] < 0)
      && (forall j :: sp.first <= j < sp.last ==> labelsShift[j] >= 0)
      && (sp.last == |labelsShift| || labelsShift[sp.last] < 0)
  {
    var mask := TraceMask(labelsShift);
    var sp := Locate(mask).value;
    assert IsFirstTraceRun(mask, sp);
  }
}

=== FILE: textsplit.dfy ===
/** Python's `str.split(sep)` for a non-empty separator: the text is cut at
    the leftmost occurrence of `sep`, and the search resumes after that
    occurrence, so matches never overlap. */
module TextSplit {
  import opened Wrappers

  /** `sep` occurs in `s` starting at position `i`. */
  predicate IsAt(s: string, sep: string, i: nat) {
    i + |sep| <= |s| && s[i..i + |sep|] == sep
  }

  /** Leftmost occurrence of `sep` at or after `from`. */
  function FindFrom(s: string, sep: string, from: nat): (r: Option<nat>)
    requires |sep| >= 1
    ensures r.None? ==> forall j :: from <= j ==> !IsAt(s, sep, j)
    ensures r.Some? ==> from <= r.value && IsAt(s, sep, r.value)
    ensures r.Some? ==> forall j :: from <= j < r.value ==> !IsAt(s, sep, j)
    decreases |s| - from
  {
    if from + |sep| > |s| then None
    else if s[from..from + |sep|] == sep then Some(from)
    else FindFrom(s, sep, from + 1)
  }

  /** Python's `s.find(sep)`, with `None` for `-1`. */
  function Find(s: string, sep: string): (r: Option<nat>)
    requires |sep| >= 1
    ensures r.None? ==> forall j: nat :: !IsAt(s, sep, j)
    ensures r.Some? ==> IsAt(s, sep, r.value) && forall j :: 0 <= j < r.value ==> !IsAt(s, sep, j)
  {
    FindFrom(s, sep, 0)
  }

  /** `Find` reports the first occurrence, whatever way it was established. */
  lemma FindFirst(s: string, sep: string, t: nat)
    requires |sep| >= 1 && IsAt(s, sep, t)
    requires forall j :: 0 <= j < t ==> !IsAt(s, sep, j)
    ensures Find(s, sep) == Some(t)
  {
  }

  /** `s.split(sep)`. */
  function Split(s: string, sep: string): (parts: seq<string>)
    requires |sep| >= 1
    ensures |parts| >= 1
    ensures |parts| == 1 <==> Find(s, sep).None?
    decreases |s|
  {
    match Find(s, sep)
    case None => [s]
    case Some(i) => [s[..i]] + Split(s[i + |sep|..], sep)
  }

  /** `sep.join(parts)`. */
  function Join(parts: seq<string>, sep: string): string {
    if |parts| == 0 then ""
    else if |parts| == 1 then parts[0]
    else parts[0] + sep + Join(parts[1..], sep)
  }

  lemma JoinCons(a: string, rest: seq<string>, sep: string)
    requires |rest| >= 1
    ensures Join([a] + rest, sep) == a + sep + Join(rest, sep)
  {
    assert ([a] + rest)[1..] == rest;
  }

  /** One step of `Split`: the piece before the first occurrence, then the
      pieces of the rest. */
  lemma SplitStep(s: string, sep: string)
    requires |sep| >= 1 && Find(s, sep).Some?
    ensures Split(s, sep) == [s[..Find(s, sep).value]] + Split(s[Find(s, sep).value + |sep|..], sep)
  {
  }

  /** Joining the pieces with the separator gives back the text. */
  lemma {:induction false} SplitJoin(s: string, sep: string)
    requires |sep| >= 1
    ensures Join(Split(s, sep), sep) == s
    decreases |s|
  {
    match Find(s, sep)
    case None =>
    case Some(i) =>
      var head, rest := s[..i], s[i + |sep|..];
      SplitStep(s, sep);
      SplitJoin(rest, sep);
      JoinCons(head, Split(rest, sep), sep);
      Reassemble(s, sep, i);
  }

  /** Cutting out an occurrence and putting the separator back is the identity. */
  lemma Reassemble(s: string, sep: string, i: nat)
    requires IsAt(s, sep, i)
    ensures s[..i] + sep + s[i + |sep|..] == s
  {
    assert s == s[..i] + s[i..i + |sep|] + s[i + |sep|..];
  }

  /** An occurrence inside a prefix is an occurrence in the whole text. */
  lemma IsAtPrefix(s: string, sep: string, i: nat, j: nat)
    requires i <= |s| && IsAt(s[..i], sep, j)
    ensures IsAt(s, sep, j)
  {
    assert s[..i][j..j + |sep|] == s[j..j + |sep|];
  }

  /** No piece contains the separator. */
  lemma SplitPartsFree(s: string, sep: string)
    requires |sep| >= 1
    ensures forall k :: 0 <= k < |Split(s, sep)| ==> Find(Split(s, sep)[k], sep).None?
  {
    forall k | 0 <= k < |Split(s, sep)|
      ensures Find(Split(s, sep)[k], sep).None?
    {
      SplitPieceFree(s, sep, k);
    }
  }

  /** Piece `k` of the split contains no separator. */
  lemma {:induction false} SplitPieceFree(s: string, sep: string, k: nat)
    requires |sep| >= 1 && k < |Split(s, sep)|
    ensures Find(Split(s, sep)[k], sep).None?
    decreases |s|
  {
    match Find(s, sep)
    case None =>
    case Some(i) =>
      var rest := s[i + |sep|..];
      SplitStep(s, sep);
      if k == 0 {
        HeadFree(s, sep, i);
      } else {
        SplitPieceFree(rest, sep, k - 1);
      }
  }

  /** The text before the first occurrence holds no occurrence. */
  lemma HeadFree(s: string, sep: string, i: nat)
    requires |sep| >= 1 && Find(s, sep) == Some(i)
    ensures Find(s[..i], sep).None?
  {
    forall j: nat
      ensures !IsAt(s[..i], sep, j)
    {
      if IsAt(s[..i], sep, j) {
        IsAtPrefix(s, sep, i, j);
      }
    }
  }

  /** The cut is leftmost: each piece but the last, followed by the
      separator, first contains the separator where the piece ends. So no
      occurrence starts inside a piece, even one that would run on into the
      separator after it. */
  lemma {:induction false} SplitPiecesLeftmost(s: string, sep: string, k: nat)
    requires |sep| >= 1 && k + 1 < |Split(s, sep)|
    ensures Find(Split(s, sep)[k] + sep, sep) == Some(|Split(s, sep)[k]|)
    decreases |s|
  {
    match Find(s, sep)
    case None =>
    case Some(i) =>
      SplitStep(s, sep);
      if k == 0 {
        HeadLeftmost(s, sep, i);
      } else {
        SplitPiecesLeftmost(s[i + |sep|..], sep, k - 1);
      }
  }

  /** The text before the first occurrence, with the separator put back,
      first holds the separator at its end. */
  lemma HeadLeftmost(s: string, sep: string, i: nat)
    requires |sep| >= 1 && Find(s, sep) == Some(i)
    ensures Find(s[..i] + sep, sep) == Some(i)
  {
    var t := s[..i] + sep;
    assert t == s[..i + |sep|];
    assert t[i..i + |sep|] == sep;
    forall j | 0 <= j < i
      ensures !IsAt(t, sep, j)
    {
      if IsAt(t, sep, j) {
        IsAtPrefix(s, sep, i + |sep|, j);
      }
    }
    FindFirst(t, sep, i);
  }

  /** An occurrence starts with the separator's first character. */
  lemma IsAtHead(s: string, sep: string, j: nat)
    requires |sep| >= 1
    ensures IsAt(s, sep, j) ==> j < |s| && s[j] == sep[0]
  {
    if IsAt(s, sep, j) {
      assert s[j..j + |sep|][0] == s[j];
    }
  }

  /** A text without the separator's first character contains no occurrence. */
  lemma NoLeadChar(s: string, sep: string)
    requires |sep| >= 1 && sep[0] !in s
    ensures Split(s, sep) == [s]
  {
    forall j: nat
      ensures !IsAt(s, sep, j)
    {
      IsAtHead(s, sep, j);
    }
  }

  /** When `x` lacks the separator's first character, the first occurrence in
      `x + sep + y` is the one written after `x`. */
  lemma SplitAfter(x: string, sep: string, y: string)
    requires |sep| >= 1 && sep[0] !in x
    ensures Split(x + sep + y, sep) == [x] + Split(y, sep)
  {
    var s := x + sep + y;
    assert s[|x|..|x| + |sep|] == sep;
    forall j | 0 <= j < |x|
      ensures !IsAt(s, sep, j)
    {
      assert s[j] == x[j];
      IsAtHead(s, sep, j);
    }
    FindFirst(s, sep, |x|);
    assert s[..|x|] == x;
    assert s[|x| + |sep|..] == y;
  }

  /** Leftmost, non-overlapping: five `#` hold one `####` and a stray `#`. */
  lemma SplitLeftmostExample()
    ensures Split("a#####b", "####") == ["a", "#b"]
  {
    assert "a#####b" == "a" + "####" + "#b";
    SplitAfter("a", "####", "#b");
    assert Split("#b", "####") == ["#b"];
  }
}

=== FILE: wrappers.dfy ===
/** `Option` and `Result` for the whole model. An exception the program
    raises and never catches is a `Failure` whose value says which check
    raised it; `:-` passes it on unchanged. */
module Wrappers {

  datatype Option<+T> = None | Some(value: T)

  datatype Result<+T, +E> = Success(value: T) | Failure(error: E) {

    predicate IsFailure() {
      Failure?
    }

    function PropagateFailure<U>(): Result<U, E>
      requires Failure?
    {
      Failure(error)
    }

    function Extract(): T
      requires Success?
    {
      value
    }
  }
}
